=== FILE: README.md ===
# Sitecake page model

A model, in Dafny, of the page object of the Sitecake CMS (`src/Sitecake/Page.php`). This is
the class that holds one parsed HTML page. It finds the page's editable content containers and
their names, lists the uploaded files that the containers refer to, and adds or removes a prefix
on resource URLs. It also manages the robots, description, application and page-id meta tags,
and routes internal links through the CMS entry point when the page is rendered.

The page is abstracted as `Document.Doc`:

- `metas` is the sequence of the head's `<meta>` tags, each given by its attribute map.
- `body` is the sequence of elements in document order. Each element has a tag name, an
  attribute map, its class attribute as a list of tokens, and its inner markup as opaque text.

A page operation of the source mutates the document in place. Here it is a function from the
old page to the new one.

Modules, following the parts of the page object:

- `Text` holds PCRE's `\s`, and the link between a class string and its tokens. The class
  string is the tokens joined by single spaces. The lemma `LeftmostIsFirstToken` shows that the
  leftmost match of a pattern anchored by `(^|\s)` is the first token that matches it.
- `ContainerLocator` covers the four class-attribute patterns, written character by character
  and proved equal to predicates on tokens. It also holds `containerNodes`, `containers`,
  normalizing and cleaning up temporary names, and `setContainerContent`.
- `AssetScan` models the search of `preg_match_all` for the asset-file pattern as a
  backtracking matcher runs it. It also holds `listContainerResourceUrls` and
  `listResourceUrls`.
- `UrlRewriter` covers `prefixResourceUrls` and `unprefixResourceUrls`.
- `MetaMarkers` covers the no-index, description, application-marker and page-id operations.
- `Navigation` covers `adjustNavLinks`, `render`, `setNav` and `listNavUrls`.
- `Seqs` and `Wrappers` are generic helpers.

Collaborators whose code is not part of this model are parameters:

- `Utils::isResourceUrl` is `isResourceUrl: string -> bool`.
- `Utils::isExternalNavLink` is `isExternal: string -> bool`.
- Rendering an element to markup is `serialize: Element -> string`.
- phpQuery's `text()` is `textOf: Element -> string`.
- A CSS selector given by the caller is `selected: Element -> bool`.
- The fresh ids of `uniqid()` are `ids`, one per body position.
- The id of `Utils::id()` is `id`.

phpQuery is not part of this model either. Two of its methods are used with the meaning they
have in jQuery:

- `addClass` appends a class that the element does not already have.
- `removeClass` removes every occurrence of the class.
- The `attr` getter yields `""` on an empty selection and `null` for an element that lacks the
  attribute. `getPageDescription` and `pageId` are modelled on that reading.

The CSS pre-filter `[class*="sc-content"]` of `containerNodes` is not modelled separately. Every
class attribute the container pattern accepts contains `sc-content`, so the pattern alone decides.

## Model

| member | source | states |
|---|---|---|
| `ContainerLocator.ContainerPatternIff` | src/Sitecake/Page.php:185-190 | the container pattern matches the class attribute exactly when some whitespace-delimited token is `sc-content` or `sc-content-` followed by at least one character (a whole-token match, in both directions) |
| `ContainerLocator.ContainerPatternExamples` | src/Sitecake/Page.php:188 | `sc-content-box widget` is a container; `my-sc-content-box`, `sc-contentx` and `sc-content-` are not |
| `ContainerLocator.ContainerNodes` | src/Sitecake/Page.php:183-193 | every returned element is a container of the page, and every container of the page is returned |
| `ContainerLocator.BarePatternIff` | src/Sitecake/Page.php:199 | the unnamed-container pattern matches exactly when the token `sc-content` is present |
| `ContainerLocator.NamePatternLeftmost` | src/Sitecake/Page.php:225-227 | the naming pattern fails exactly when no token starts with `sc-content-` plus a character; otherwise group 2 of its leftmost match is the first such token without the prefix |
| `ContainerLocator.TempPatternLeftmost` | src/Sitecake/Page.php:209-211 | the cleanup pattern fails exactly when there is no temporary-name token; otherwise group 2 of its leftmost match is the first temporary-name token |
| `ContainerLocator.Containers` | src/Sitecake/Page.php:221-233 | at most one name per container; names are non-empty; each name, prefixed with `sc-content-`, is a class token of a container of the page; every container with a `sc-content-<name>` token contributes the name of its first such token |
| `ContainerLocator.ContainersOfOne` | src/Sitecake/Page.php:224-230 | a one-element page lists the name of the element's first `sc-content-<name>` token when the element is a container, and nothing otherwise |
| `ContainerLocator.ContainersAppend` | src/Sitecake/Page.php:224-230 | the names of a page are those of its first part followed by those of its second: document order, repeats kept |
| `ContainerLocator.ContainersExample` | src/Sitecake/Page.php:221-233 | containers named hero, (unnamed), footer, hero give `["hero", "footer", "hero"]` |
| `ContainerLocator.ContainersListTempNames` | src/Sitecake/Page.php:225-228 | a container named only by `sc-content-_cnt_<id>` is listed under the name `_cnt_<id>` |
| `ContainerLocator.NormalizeContainerNames` | src/Sitecake/Page.php:195-203 | only class lists change; an element without `sc-content` is unchanged; one with it gets exactly one new token `sc-content-_cnt_<id>` at the end; container-ness is kept; afterwards every container has a name |
| `ContainerLocator.CleanupContainerNames` | src/Sitecake/Page.php:205-214 | only class lists of containers change; in a container with a temporary-name token, the first such token disappears and every other token stays; no token is added, so well-formed class lists stay well-formed |
| `ContainerLocator.CleanupUndoesNormalize` | src/Sitecake/Page.php:195-214 | on a page without temporary names, cleanup after normalization restores the page exactly |
| `ContainerLocator.SetContainerContent` | src/Sitecake/Page.php:136-141 | every element with class `sc-content-<name>` gets the content; nothing else changes; the container names are the same, in this model where inner markup is opaque |
| `ContainerLocator.SetContainerContentReachesNamed` | src/Sitecake/Page.php:136-141 | a name listed by `containers` addresses at least one container that receives the content |
| `AssetScan.LastDir` | src/Sitecake/Page.php:173 | the leading `[^\s"',]*` gives back characters from its longest extent: the largest position where a directory name completes the match, or none exactly when no position does |
| `AssetScan.LastMarker` | src/Sitecake/Page.php:173 | `[^\s]*` gives back characters from its longest extent: the largest position where a marker completes the match, or none exactly when no position does |
| `AssetScan.MatchAt` | src/Sitecake/Page.php:173-174 | a match found at `p` starts at `p`, is matched by the pattern, and takes the whole run of letters and digits after the dot |
| `AssetScan.MatchAtIsSearch` | src/Sitecake/Page.php:173-174 | the search at `p` fails exactly when no match of the pattern starts at `p`; the match it returns is the first in the matcher's order of trial |
| `AssetScan.ScanFrom` | src/Sitecake/Page.php:173-175 | every reported match is the search's match at its own start; matches do not overlap and come in order; every position where a match starts lies inside a reported one |
| `AssetScan.ScanEmptyIff` | src/Sitecake/Page.php:173-175 | nothing is reported exactly when the pattern occurs nowhere in the markup |
| `AssetScan.MatchedTextInPattern` | src/Sitecake/Page.php:175 | the text of each match is, on its own, matched by the whole pattern |
| `AssetScan.AssetUrlExample` | src/Sitecake/Page.php:173 | `files/doc-sc0123456789abc.pdf` is matched by the pattern |
| `AssetScan.PatternInContext` | src/Sitecake/Page.php:173 | a text the pattern matches as a whole is matched with the same split wherever it occurs in longer markup |
| `AssetScan.ScanAssetImageExample` | src/Sitecake/Page.php:173-175 | in `<img src="images/logo-sc1234567890123.png">` the matches are exactly the one file name `images/logo-sc1234567890123.png` |
| `AssetScan.ScanPlainImageExample` | src/Sitecake/Page.php:173-175 | in `<img src="images/logo.png">`, a name without the marker, nothing is matched |
| `AssetScan.ListContainerResourceUrls` | src/Sitecake/Page.php:170-181 | every listed URL is matched by the pattern as a whole and passes the resource-URL test; each is a matched text; every matched text that passes the test is listed |
| `AssetScan.ListContainerResourceUrlsCounts` | src/Sitecake/Page.php:172-179 | repeats are kept: a URL that passes the test is listed as many times as the pattern matches it, and a URL that fails it not at all |
| `AssetScan.ListContainerResourceUrlsAll` | src/Sitecake/Page.php:172-179 | when every matched text passes the test, the list is exactly the matched texts, in order |
| `AssetScan.ListResourceUrls` | src/Sitecake/Page.php:45-51 | every listed URL is matched by the pattern and passes the resource-URL test; a page without containers lists nothing |
| `AssetScan.ListResourceUrlsAppend` | src/Sitecake/Page.php:47-49 | the URLs of a page are those of its first part followed by those of its second: container order, no deduplication |
| `AssetScan.ListResourceUrlsOfOne` | src/Sitecake/Page.php:170-181 | a single container contributes exactly its own list |
| `UrlRewriter.PrefixResourceUrls` | src/Sitecake/Page.php:29-35 | only `src`, `href` and `srcset` of `a` and `img` change, and only values that pass the resource-URL test, which get the prefix in front; all other elements, attributes and values are unchanged |
| `UrlRewriter.UnprefixResourceUrls` | src/Sitecake/Page.php:37-43 | only resource-URL values of `src`, `href` and `srcset` of `a` and `img` that start with the prefix change, and they lose exactly that prefix; everything else is unchanged |
| `UrlRewriter.UnprefixAfterPrefix` | src/Sitecake/Page.php:29-43 | unprefixing after prefixing with the same prefix restores the page, when the test still accepts prefixed resource URLs |
| `UrlRewriter.UnprefixWithoutPrefix` | src/Sitecake/Page.php:37-43 | unprefixing a page none of whose resource URLs carries the prefix is a no-op |
| `MetaMarkers.IsRobotsNoIndex` | src/Sitecake/Page.php:102-104 | true exactly when some meta tag has `content="noindex"` |
| `MetaMarkers.AddRobotsNoIndex` | src/Sitecake/Page.php:85-89 | afterwards the page is marked no-index; the other meta tags and the body are unchanged; a page without the marker gets exactly one; a page already marked is returned unchanged |
| `MetaMarkers.RemoveRobotsNoIndex` | src/Sitecake/Page.php:94-96 | afterwards no meta tag is a no-index marker; the other meta tags and the body are unchanged |
| `MetaMarkers.AddRobotsNoIndexIdempotent` | src/Sitecake/Page.php:85-89 | adding the marker twice is adding it once |
| `MetaMarkers.AddThenRemoveRobotsNoIndex` | src/Sitecake/Page.php:85-96 | removing after adding equals removing; after adding to an unmarked page there is exactly one marker |
| `MetaMarkers.GetPageDescription` | src/Sitecake/Page.php:111-118 | `""` without a description tag; otherwise the `content` of the first description tag |
| `MetaMarkers.SetPageDescription` | src/Sitecake/Page.php:123-134 | reading the description back gives the text set; `""` removes every description tag; otherwise every description tag holds the text and a page without one gets exactly one; other meta tags and the body are unchanged; when description tags exist, every tag stays in its place, the description tags keep all their other attributes and the other tags are untouched |
| `MetaMarkers.SetPageDescriptionIdempotent` | src/Sitecake/Page.php:123-134 | setting the same description twice is setting it once |
| `MetaMarkers.SetPageDescriptionAsWritten` | src/Sitecake/Page.php:128-132 | for a text without a double quote or `&`, the source's behaviour is that of `SetPageDescription` |
| `MetaMarkers.QuoteCutsNewDescription` | src/Sitecake/Page.php:131 | on a page without a description tag, setting `say "hi"` as the source writes it reads back as `say `; the corrected definition reads back `say "hi"` |
| `MetaMarkers.AddMetadata` | src/Sitecake/Page.php:143-147 | afterwards an application marker exists; a page that had one is unchanged; a page without one gets exactly one; the other meta tags and the body are unchanged |
| `MetaMarkers.AddMetadataIdempotent` | src/Sitecake/Page.php:143-147 | adding the marker twice is adding it once |
| `MetaMarkers.RemoveMetadata` | src/Sitecake/Page.php:149-151 | afterwards no application marker remains; the other meta tags and the body are unchanged |
| `MetaMarkers.EnsurePageId` | src/Sitecake/Page.php:153-156 | afterwards the page id is the fresh id, overwriting any earlier one, and every application marker carries it; other meta tags and the body are unchanged |
| `MetaMarkers.PageId` | src/Sitecake/Page.php:158-160 | `data-pageid` of the first application marker, `null` when that marker lacks it; `""` when the page has no marker |
| `MetaMarkers.RemovePageId` | src/Sitecake/Page.php:162-164 | afterwards reading the page id gives `null` when a marker exists and `""` when none does; the markers stay with exactly their other attributes, unchanged; every other tag is unchanged |
| `MetaMarkers.RemoveEnsuredPageId` | src/Sitecake/Page.php:153-164 | removing the id after ensuring one leaves the page as if only the marker had been added |
| `Navigation.AdjustNavLinks` | src/Sitecake/Page.php:235-242 | each anchor whose `href` (empty if absent) fails the external-link test gets `sitecake.php?page=` followed by its old `href`; no other attribute or element changes |
| `Navigation.AdjustedLinkKeepsTarget` | src/Sitecake/Page.php:237-240 | stripping the entry point from a rewritten `href` gives back the old one |
| `Navigation.Render` | src/Sitecake/Page.php:24-27 | external anchors keep their `href`; every other anchor's `href` is the entry point followed by its old one; the meta tags, every element that is not an anchor or whose link is external, and every attribute other than `href` are unchanged |
| `Navigation.RenderTwicePrefixesTwice` | src/Sitecake/Page.php:235-242 | the rewrite is one-way: a second pass puts the entry point in front again when the test rejects the rewritten link |
| `Navigation.SetNav` | src/Sitecake/Page.php:75-80 | every selected element gets the markup as its content; only content changes; unselected elements are unchanged |
| `Navigation.ListNavUrls` | src/Sitecake/Page.php:59-66 | the keys are exactly the `href`s of the selected elements; each maps to the text of the last selected element with that `href` |

## Left out

- Parsing and serializing HTML, and phpQuery, are not modelled. Nesting is not modelled either: the body is a flat sequence in document order, and inner markup is opaque text. `setContainerContent` and `setNav` therefore replace the inner markup without removing nested elements from the sequence.
- Only meta tags in the head are modelled. The source's `meta[...]` selectors would also find meta tags in the body.
- The whitespace between class tokens is taken to be single spaces. The patterns are proved about that form.
- Strings are sequences of characters, while PHP's `preg_*` functions without `/u` work on bytes. Every character the asset pattern names is ASCII, so positions differ but matched texts do not.
- The `_containers` memo of `containers()` is left out: names are recomputed on every call. In the source, a list cached before `normalizeContainerNames` or `cleanupContainerNames` is not refreshed afterwards.
- `appendCodeToHead`, `__toString` and the constructor are left out. They are I/O around the document, or code that is not part of this model (`HtmlUtils::appendToHead`).
- AssetScan.ScanFrom: the matcher is taken to have no step limit. The nested greedy `[^\s"',]*` and `[^\s]*` take a number of steps quadratic in a long run of non-space characters, such as an inline `data:` URI. Past PCRE's `pcre.backtrack_limit`, `preg_match_all` fails, and URLs after that point are not listed.
- AssetScan.ListContainerResourceUrls: the clause that every matched text passing the test is listed rests on the same unlimited matcher as `AssetScan.ScanFrom`.
- UrlRewriter.PrefixResourceUrls: a `srcset` value is treated as one URL. `HtmlUtils::prefixNodeAttrs`, which may split `srcset` lists, is not part of this model.
- UrlRewriter.UnprefixResourceUrls: the resource-URL test is applied to the value as read, before the prefix is stripped. `HtmlUtils::unprefixNodeAttrs` is not part of this model, and `srcset` is treated as one URL.
- ContainerLocator.SetContainerContent: since inner markup is opaque, containers inside the old content are not seen to disappear, and `sc-content-*` elements inside the new content are not seen to become containers; the clause that the container names stay the same holds only of this flat model. The selector `.sc-content-<name>` is read as "has the class token `sc-content-<name>`". Names containing characters that are special in CSS selectors are not modelled.
- MetaMarkers.GetPageDescription: HTML entity decoding of attribute values is not modelled.
- MetaMarkers.SetPageDescriptionAsWritten: only the cut at the first double quote is modelled. When the source pastes the text into markup, the parser also decodes character references, so `a &amp; b` reads back as `a & b`. The model keeps such text as written, and its agreement with `SetPageDescription` is stated only for texts without `"` and `&`.
- Navigation.ListNavUrls: the result is a map, so the insertion order of a PHP array's keys is not modelled. A missing `href` is the key `""`, as PHP stores a `null` key.
- Navigation.Render: the source rewrites the page's own document and returns it, so the page object afterwards holds the rewritten links. The model returns the rewritten page and leaves it to the caller to use it in place of the old one.

## Findings

| source | as written | input that shows it | evidently intended | confidence | as-written member | corrected member |
|---|---|---|---|---|---|---|
| src/Sitecake/Page.php:131 | on a page without a description tag, the new tag is built as markup by pasting the text between double quotes without escaping it, so the description ends at the text's first `"` (character references in the text, such as `&amp;`, are also decoded; the model covers only the cut) | page without a description tag, text `say "hi"`: `getPageDescription` then gives `say ` | the tag holds the whole text, as the branch that updates an existing tag (line 129) does | not executed; high for the cut at the quote, since an HTML attribute value in double quotes ends there | `MetaMarkers.QuoteCutsNewDescription` | `MetaMarkers.SetPageDescription` |

=== FILE: assetscan.dfy ===
/**
  Listing the uploaded files a container refers to.

  The markup of a container is searched with the regular expression

      [^\s"',]*(?:files|images)\/[^\s]*\-sc[0-9a-f]{13}[^\.]*\.[0-9a-zA-Z]+

  the way `preg_match_all` does: at each start position the backtracking matcher tries the
  greedy quantifiers from their longest extent downwards, and after a match the search resumes
  where the match ended. `MatchAt` is that search at one start position and `ScanFrom` the
  repetition; `ValidMatch` is the pattern itself, read as a split of the matched text into its
  parts, and the lemmas show that the search finds a match exactly when the pattern occurs.
 */
module AssetScan {
  import opened Wrappers
  import opened Seqs
  import opened Text
  import opened Document
  import opened ContainerLocator

  /** `[^\s"',]`: a character of the part before the directory name. */
  predicate IsLeadChar(c: char) {
    NotSpace(c) && c != '"' && c != '\'' && c != ','
  }

  /** `[0-9a-f]` */
  predicate IsLowerHex(c: char) {
    '0' <= c <= '9' || 'a' <= c <= 'f'
  }

  /** `[0-9a-zA-Z]` */
  predicate IsAlnum(c: char) {
    '0' <= c <= '9' || 'a' <= c <= 'z' || 'A' <= c <= 'Z'
  }

  /** `[^\.]` */
  predicate NotDot(c: char) {
    c != '.'
  }

  /** Length of the `files/` or `images/` that starts at `k`, or 0 when neither does. */
  function DirLen(h: string, k: nat): nat
    requires k <= |h|
  {
    if k + 6 <= |h| && h[k..k + 6] == "files/" then 6
    else if k + 7 <= |h| && h[k..k + 7] == "images/" then 7
    else 0
  }

  /** `\-sc[0-9a-f]{13}` starts at `m`. */
  predicate MarkerAt(h: string, m: nat) {
    && m + 16 <= |h|
    && h[m..m + 3] == "-sc"
    && forall j | m + 3 <= j < m + 16 :: IsLowerHex(h[j])
  }

  /**
    A match of the pattern from `start` to `end`, split at the positions where its parts begin:
    the directory name at `dir`, the marker at `marker`, the dot before the extension at `dot`.
   */
  datatype Match = Match(start: nat, dir: nat, marker: nat, dot: nat, end: nat)

  /** Every character of `h[lo..hi]` is in the class `p`. */
  predicate AllChars(h: string, lo: nat, hi: nat, p: char -> bool)
    requires lo <= hi <= |h|
  {
    forall j | lo <= j < hi :: p(h[j])
  }

  /** `h[x.start..x.end]` is matched by the pattern, with its parts where `x` says. */
  predicate ValidMatch(h: string, x: Match) {
    && x.start <= x.dir <= |h|
    && x.dir + DirLen(h, x.dir) <= x.marker
    && x.marker + 16 <= x.dot
    && x.dot + 1 < x.end <= |h|
    && AllChars(h, x.start, x.dir, IsLeadChar)
    && DirLen(h, x.dir) > 0
    && AllChars(h, x.dir + DirLen(h, x.dir), x.marker, NotSpace)
    && MarkerAt(h, x.marker)
    && h[x.dot] == '.'
    && AllChars(h, x.marker + 16, x.dot, NotDot)
    && AllChars(h, x.dot + 1, x.end, IsAlnum)
  }

  /** The whole of `u` is matched by the pattern. */
  ghost predicate InAssetPattern(u: string) {
    exists x: Match | x.start == 0 && x.end == |u| :: ValidMatch(u, x)
  }

  /**
    `[^\.]*\.[0-9a-zA-Z]+` after the marker at `m`. The run of non-dots is greedy and
    cannot give a dot back, so the dot is the first one after the marker; the extension is
    the whole run of letters and digits after it. Yields the dot and the end of the match.
   */
  function Tail(h: string, m: nat): Option<(nat, nat)>
    requires m + 16 <= |h|
  {
    var dot := SpanEnd(h, m + 16, NotDot);
    if dot + 1 < |h| && IsAlnum(h[dot + 1]) then Some((dot, SpanEnd(h, dot + 1, IsAlnum)))
    else None
  }

  /** A marker at `m` from which the rest of the pattern matches. */
  predicate MarkerOk(h: string, m: nat) {
    MarkerAt(h, m) && Tail(h, m).Some?
  }

  /** Where the part between the directory name at `k` and the marker begins. */
  function PathStart(h: string, k: nat): nat
    requires k <= |h|
  {
    k + DirLen(h, k)
  }

  /**
    The largest `m` with `lo <= m <= hi` at which a marker completes the match: `[^\s]*`
    gives characters back one at a time, from its longest extent `hi` down to `lo`.
   */
  function LastMarker(h: string, lo: nat, hi: nat): (r: Option<nat>)
    requires lo <= hi
    ensures r.Some? ==> lo <= r.value <= hi && MarkerOk(h, r.value)
    ensures r.Some? ==> forall m: nat | r.value < m <= hi :: !MarkerOk(h, m)
    ensures r.None? <==> forall m: nat | lo <= m <= hi :: !MarkerOk(h, m)
  {
    var ok := (m: nat) => MarkerOk(h, m);
    assert forall m: nat :: ok(m) == MarkerOk(h, m);
    Highest(lo, hi, ok)
  }

  /** The marker the matcher settles on after the directory name at `k`. */
  function MarkerFor(h: string, k: nat): Option<nat>
    requires k <= |h|
  {
    var path := PathStart(h, k);
    if path <= |h| then LastMarker(h, path, RunEnd(h, path)) else None
  }

  /** A directory name at `k` from which the rest of the pattern matches. */
  predicate DirOk(h: string, k: nat) {
    k <= |h| && DirLen(h, k) > 0 && MarkerFor(h, k).Some?
  }

  /**
    The largest `k` with `lo <= k <= hi` at which a directory name completes the match:
    `[^\s"',]*` gives characters back from its longest extent `hi` down to `lo`.
   */
  function LastDir(h: string, lo: nat, hi: nat): (r: Option<nat>)
    requires lo <= hi
    ensures r.Some? ==> lo <= r.value <= hi && DirOk(h, r.value)
    ensures r.Some? ==> forall k: nat | r.value < k <= hi :: !DirOk(h, k)
    ensures r.None? <==> forall k: nat | lo <= k <= hi :: !DirOk(h, k)
  {
    var ok := (k: nat) => DirOk(h, k);
    assert forall k: nat :: ok(k) == DirOk(h, k);
    Highest(lo, hi, ok)
  }

  /** The match the backtracking matcher finds when it starts at `p`. */
  function MatchAt(h: string, p: nat): (r: Option<Match>)
    requires p <= |h|
    ensures r.Some? ==> r.value.start == p && ValidMatch(h, r.value)
    ensures r.Some? ==> r.value.end == |h| || !IsAlnum(h[r.value.end])
  {
    match LastDir(h, p, SpanEnd(h, p, IsLeadChar))
    case None => None
    case Some(k) =>
      var m := MarkerFor(h, k).value;
      var t := Tail(h, m).value;
      Some(Match(p, k, m, t.0, t.1))
  }

  /** `x` is at least as early in the matcher's order of trial as `y`. */
  predicate TriedFirst(x: Match, y: Match) {
    y.dir < x.dir || (y.dir == x.dir && y.marker <= x.marker)
  }

  /** Every match gives the search the choices it needs to succeed. */
  lemma ValidMatchIsFound(h: string, x: Match)
    requires ValidMatch(h, x)
    ensures x.dir <= SpanEnd(h, x.start, IsLeadChar)
    ensures x.marker <= RunEnd(h, PathStart(h, x.dir))
    ensures MarkerOk(h, x.marker) && DirOk(h, x.dir)
  {
    SpanEndUnique(h, x.marker + 16, NotDot, x.dot);
    assert MarkerOk(h, x.marker);
    assert x.marker <= RunEnd(h, PathStart(h, x.dir));
  }

  /**
    The search at `p` fails exactly when no match of the pattern starts at `p`, and the match
    it returns is the first one in the matcher's order of trial: the longest leading part,
    then the longest part between the directory name and the marker.
   */
  lemma MatchAtIsSearch(h: string, p: nat)
    requires p <= |h|
    ensures MatchAt(h, p).None? <==> forall x: Match | x.start == p :: !ValidMatch(h, x)
    ensures MatchAt(h, p).Some? ==>
      forall x: Match | x.start == p && ValidMatch(h, x) :: TriedFirst(MatchAt(h, p).value, x)
  {
    var hk := LastDir(h, p, SpanEnd(h, p, IsLeadChar));
    forall x: Match | x.start == p && ValidMatch(h, x)
      ensures hk.Some? && x.dir <= hk.value
      ensures hk.value == x.dir ==> x.marker <= MarkerFor(h, x.dir).value
    {
      ValidMatchIsFound(h, x);
    }
  }

  /** Some match of `ms` spans position `q`. */
  predicate Covered(ms: seq<Match>, q: nat) {
    exists i | 0 <= i < |ms| :: ms[i].start <= q < ms[i].end
  }

  /**
    What `preg_match_all` from position `pos` reports in `r`: each entry is the match the
    search finds at its own start, the entries follow each other without overlap, and every
    start position at which the search would succeed lies inside one of them.
   */
  predicate ScanOk(h: string, pos: nat, r: seq<Match>) {
    ScanFound(h, pos, r) && Ordered(r) && ScanCovers(h, pos, r)
  }

  predicate ScanFound(h: string, pos: nat, r: seq<Match>) {
    forall i | 0 <= i < |r| :: pos <= r[i].start <= |h| && MatchAt(h, r[i].start) == Some(r[i])
  }

  predicate Ordered(r: seq<Match>) {
    forall i | 0 < i < |r| :: r[i - 1].end <= r[i].start
  }

  predicate ScanCovers(h: string, pos: nat, r: seq<Match>) {
    forall q | pos <= q < |h| && MatchAt(h, q).Some? :: Covered(r, q)
  }

  /**
    `preg_match_all` from position `pos`: the match found at the earliest start position, then
    the search again from where that match ended.
   */
  function ScanFrom(h: string, pos: nat): (r: seq<Match>)
    requires pos <= |h|
    ensures ScanOk(h, pos, r)
    decreases |h| - pos
  {
    if pos == |h| then []
    else match MatchAt(h, pos)
      case None =>
        var rest := ScanFrom(h, pos + 1);
        ScanSkip(h, pos, rest);
        rest
      case Some(x) =>
        var rest := ScanFrom(h, x.end);
        ScanCons(h, x, rest);
        [x] + rest
  }

  lemma ScanSkip(h: string, pos: nat, rest: seq<Match>)
    requires pos < |h| && MatchAt(h, pos).None?
    requires ScanOk(h, pos + 1, rest)
    ensures ScanOk(h, pos, rest)
  {
  }

  lemma ScanCons(h: string, x: Match, rest: seq<Match>)
    requires x.start < |h| && MatchAt(h, x.start) == Some(x)
    requires x.end <= |h| && ScanOk(h, x.end, rest)
    ensures ScanOk(h, x.start, [x] + rest)
  {
    FoundCons(h, x, rest);
    OrderedCons(x, rest);
    CoversCons(h, x, rest);
  }

  lemma FoundCons(h: string, x: Match, rest: seq<Match>)
    requires x.start < |h| && MatchAt(h, x.start) == Some(x)
    requires x.start <= x.end && ScanFound(h, x.end, rest)
    ensures ScanFound(h, x.start, [x] + rest)
  {
    var r := [x] + rest;
    forall i | 0 <= i < |r| ensures x.start <= r[i].start <= |h| && MatchAt(h, r[i].start) == Some(r[i]) {
      if i > 0 {
        assert r[i] == rest[i - 1];
      }
    }
  }

  lemma OrderedCons(x: Match, rest: seq<Match>)
    requires Ordered(rest)
    requires forall i | 0 <= i < |rest| :: x.end <= rest[i].start
    ensures Ordered([x] + rest)
  {
    var r := [x] + rest;
    forall i | 0 < i < |r| ensures r[i - 1].end <= r[i].start {
      assert r[i] == rest[i - 1];
      if i > 1 {
        assert r[i - 1] == rest[i - 2];
      }
    }
  }

  lemma CoversCons(h: string, x: Match, rest: seq<Match>)
    requires x.start <= x.end && ScanCovers(h, x.end, rest)
    ensures ScanCovers(h, x.start, [x] + rest)
  {
    CoveredCons(x, rest);
  }

  lemma CoveredCons(x: Match, rest: seq<Match>)
    ensures forall q | x.start <= q < x.end :: Covered([x] + rest, q)
    ensures forall q: nat | Covered(rest, q) :: Covered([x] + rest, q)
  {
    var r := [x] + rest;
    forall q | x.start <= q < x.end ensures Covered(r, q) {
      assert r[0] == x;
    }
    forall q: nat | Covered(rest, q) ensures Covered(r, q) {
      var i :| 0 <= i < |rest| && rest[i].start <= q < rest[i].end;
      assert r[i + 1] == rest[i];
    }
  }

  /** The scan of `h` finds nothing exactly when the pattern occurs nowhere in `h`. */
  lemma ScanEmptyIff(h: string)
    ensures ScanFrom(h, 0) == [] <==> forall x: Match :: !ValidMatch(h, x)
  {
    var r := ScanFrom(h, 0);
    if r != [] {
      assert ValidMatch(h, r[0]);
    }
    forall x: Match | ValidMatch(h, x) ensures r != [] {
      MatchAtIsSearch(h, x.start);
      assert Covered(r, x.start);
    }
  }

  /** A match moved to the start of its own text. */
  function Shift(x: Match): Match
    requires x.start <= x.dir <= x.marker <= x.dot <= x.end
  {
    Match(0, x.dir - x.start, x.marker - x.start, x.dot - x.start, x.end - x.start)
  }

  lemma AllCharsSlice(h: string, s: nat, e: nat, lo: nat, hi: nat, p: char -> bool)
    requires s <= lo <= hi <= e <= |h|
    ensures AllChars(h[s..e], lo - s, hi - s, p) <==> AllChars(h, lo, hi, p)
  {
    var u := h[s..e];
    assert forall j | lo - s <= j < hi - s :: u[j] == h[s + j];
  }

  lemma SliceOfSlice(h: string, s: nat, e: nat, a: nat, b: nat)
    requires s <= e <= |h| && a <= b <= e - s
    ensures h[s..e][a..b] == h[s + a..s + b]
  {
    var u := h[s..e][a..b];
    forall j | 0 <= j < |u| ensures u[j] == h[s + a..s + b][j] {
      assert u[j] == h[s + a + j];
    }
  }

  lemma DirLenSlice(h: string, s: nat, e: nat, k: nat)
    requires s <= k && k + 7 <= e <= |h|
    ensures DirLen(h[s..e], k - s) == DirLen(h, k)
  {
    SliceOfSlice(h, s, e, k - s, k - s + 6);
    SliceOfSlice(h, s, e, k - s, k - s + 7);
  }

  lemma MarkerSlice(h: string, s: nat, e: nat, m: nat)
    requires s <= m && m + 16 <= e <= |h|
    ensures MarkerAt(h[s..e], m - s) <==> MarkerAt(h, m)
  {
    var u := h[s..e];
    SliceOfSlice(h, s, e, m - s, m - s + 3);
    assert forall j | m - s + 3 <= j < m - s + 16 :: u[j] == h[s + j];
  }

  /** The directory part of a split means the same inside `h[s..e]` as at its place in `h`. */
  lemma HeadInContext(h: string, s: nat, e: nat, y: Match)
    requires s <= e <= |h| && y.start == 0 && y.end == e - s
    requires y.dir <= y.marker && y.marker + 16 <= y.dot && y.dot + 1 < y.end
    ensures DirLen(h, s + y.dir) == DirLen(h[s..e], y.dir)
    ensures AllChars(h[s..e], 0, y.dir, IsLeadChar) <==> AllChars(h, s, s + y.dir, IsLeadChar)
    ensures y.dir + DirLen(h[s..e], y.dir) <= y.marker ==>
      (AllChars(h[s..e], y.dir + DirLen(h[s..e], y.dir), y.marker, NotSpace) <==>
       AllChars(h, s + y.dir + DirLen(h[s..e], y.dir), s + y.marker, NotSpace))
  {
    DirLenSlice(h, s, e, s + y.dir);
    AllCharsSlice(h, s, e, s, s + y.dir, IsLeadChar);
    var n := DirLen(h[s..e], y.dir);
    if y.dir + n <= y.marker {
      AllCharsSlice(h, s, e, s + y.dir + n, s + y.marker, NotSpace);
    }
  }

  /** So do the marker, the dot and the extension. */
  lemma TailInContext(h: string, s: nat, e: nat, y: Match)
    requires s <= e <= |h| && y.start == 0 && y.end == e - s
    requires y.marker + 16 <= y.dot && y.dot + 1 < y.end
    ensures MarkerAt(h[s..e], y.marker) <==> MarkerAt(h, s + y.marker)
    ensures h[s..e][y.dot] == h[s + y.dot]
    ensures AllChars(h[s..e], y.marker + 16, y.dot, NotDot) <==> AllChars(h, s + y.marker + 16, s + y.dot, NotDot)
    ensures AllChars(h[s..e], y.dot + 1, y.end, IsAlnum) <==> AllChars(h, s + y.dot + 1, e, IsAlnum)
  {
    MarkerSlice(h, s, e, s + y.marker);
    AllCharsSlice(h, s, e, s + y.marker + 16, s + y.dot, NotDot);
    AllCharsSlice(h, s, e, s + y.dot + 1, e, IsAlnum);
  }

  /** The text of a match is matched by the pattern as a whole. */
  lemma MatchedTextInPattern(h: string, x: Match)
    requires ValidMatch(h, x)
    ensures InAssetPattern(h[x.start..x.end])
  {
    var y := Shift(x);
    HeadInContext(h, x.start, x.end, y);
    TailInContext(h, x.start, x.end, y);
    assert ValidMatch(h[x.start..x.end], y);
  }

  /**
    The converse: a text the pattern matches as a whole, found at `s` in a longer markup, is
    matched there with the same split.
   */
  lemma PatternInContext(h: string, s: nat, e: nat, y: Match)
    requires s <= e <= |h| && y.start == 0 && y.end == e - s
    requires ValidMatch(h[s..e], y)
    ensures ValidMatch(h, Match(s, s + y.dir, s + y.marker, s + y.dot, e))
  {
    HeadInContext(h, s, e, y);
    TailInContext(h, s, e, y);
  }

  /** The texts of the matches, in order. */
  function Texts(h: string, ms: seq<Match>): (r: seq<string>)
    requires forall i | 0 <= i < |ms| :: ValidMatch(h, ms[i])
    ensures |r| == |ms|
    ensures forall i | 0 <= i < |r| :: InAssetPattern(r[i])
  {
    var r := seq(|ms|, i requires 0 <= i < |ms| => assert ValidMatch(h, ms[i]); h[ms[i].start..ms[i].end]);
    forall i | 0 <= i < |r| ensures InAssetPattern(r[i]) {
      MatchedTextInPattern(h, ms[i]);
    }
    r
  }

  /** A file name in the asset convention, as the content editor writes it. */
  const AssetUrl := "files/doc-sc0123456789abc.pdf"

  lemma AssetUrlParts()
    ensures ValidMatch(AssetUrl, Match(0, 0, 9, 25, 29))
  {
    var u := AssetUrl;
    AssetUrlDir();
    assert AllChars(u, 6, 9, NotSpace) by {
      assert u[6] == 'd' && u[7] == 'o' && u[8] == 'c';
    }
    AssetUrlMarker();
    assert u[25] == '.';
    assert AllChars(u, 26, 29, IsAlnum) by {
      assert u[26] == 'p' && u[27] == 'd' && u[28] == 'f';
    }
  }

  lemma AssetUrlDir()
    ensures DirLen(AssetUrl, 0) == 6
  {
    var u := AssetUrl;
    assert u[0] == 'f' && u[1] == 'i' && u[2] == 'l' && u[3] == 'e' && u[4] == 's' && u[5] == '/';
    assert u[0..6] == "files/";
  }

  lemma AssetUrlMarker()
    ensures MarkerAt(AssetUrl, 9)
  {
    var u := AssetUrl;
    assert u[9] == '-' && u[10] == 's' && u[11] == 'c';
    assert u[9..12] == "-sc";
  }

  lemma AssetUrlExample()
    ensures InAssetPattern(AssetUrl)
  {
    AssetUrlParts();
  }

  /** Everything `preg_match_all` reports for the whole of `h`. */
  function Scan(h: string): (r: seq<Match>)
    ensures forall i | 0 <= i < |r| :: ValidMatch(h, r[i])
    ensures ScanOk(h, 0, r)
  {
    var r := ScanFrom(h, 0);
    assert forall i | 0 <= i < |r| :: MatchAt(h, r[i].start) == Some(r[i]);
    r
  }

  /** `$matches[0]` of `preg_match_all`: the text of every match in `h`, in order. */
  function MatchedTexts(h: string): (r: seq<string>)
    ensures |r| == |Scan(h)|
    ensures forall i | 0 <= i < |r| :: InAssetPattern(r[i])
  {
    Texts(h, Scan(h))
  }

  /** An image file name in the asset convention. */
  const AssetName := "images/logo-sc1234567890123.png"

  /** Markup with that image. */
  const AssetImage := "<img src=\"" + AssetName + "\">"

  /** Markup with an image whose name carries no marker. */
  const PlainImage := "<img src=\"images/logo.png\">"

  /** Without a `-` in `h` no marker starts anywhere in it. */
  lemma NoMarkerWithoutDash(h: string)
    requires forall j | 0 <= j < |h| :: h[j] != '-'
    ensures forall m: nat :: !MarkerAt(h, m)
  {
    forall m: nat | m + 16 <= |h| ensures !MarkerAt(h, m) {
      assert h[m..m + 3][0] == h[m];
    }
  }

  /** An image name without the marker is not reported. */
  lemma ScanPlainImageExample()
    ensures MatchedTexts(PlainImage) == []
  {
    var h := PlainImage;
    assert forall j | 0 <= j < |h| :: h[j] != '-';
    NoMarkerWithoutDash(h);
    ScanEmptyIff(h);
  }

  lemma AssetNameParts()
    ensures ValidMatch(AssetName, Match(0, 0, 11, 27, 31))
  {
    var u := AssetName;
    AssetNameDir();
    assert AllChars(u, 7, 11, NotSpace) by {
      assert u[7] == 'l' && u[8] == 'o' && u[9] == 'g' && u[10] == 'o';
    }
    AssetNameMarker();
    assert u[27] == '.';
    assert AllChars(u, 28, 31, IsAlnum) by {
      assert u[28] == 'p' && u[29] == 'n' && u[30] == 'g';
    }
  }

  lemma AssetNameDir()
    ensures DirLen(AssetName, 0) == 7
  {
    var u := AssetName;
    assert u[0] == 'i' && u[1] == 'm' && u[2] == 'a' && u[3] == 'g' && u[4] == 'e' && u[5] == 's' && u[6] == '/';
    assert u[0..6][0] == 'i';
    assert u[0..7] == "images/";
  }

  lemma AssetNameMarker()
    ensures MarkerAt(AssetName, 11)
  {
    var u := AssetName;
    assert u[11] == '-' && u[12] == 's' && u[13] == 'c';
    assert u[11..14] == "-sc";
  }

  lemma AssetImageText()
    ensures AssetImage[10..41] == AssetName
  {
    var a := "<img src=\"";
    assert AssetImage == a + AssetName + "\">";
    assert (a + AssetName + "\">")[|a|..|a| + |AssetName|] == AssetName;
  }

  lemma AssetImageWitness()
    ensures ValidMatch(AssetImage, Match(10, 10, 21, 37, 41))
  {
    AssetNameParts();
    AssetImageText();
    PatternInContext(AssetImage, 10, 41, Match(0, 0, 11, 27, 31));
  }

  lemma AssetImageDash(m: nat)
    requires m < |AssetImage| && AssetImage[m] == '-'
    ensures m == 21
  {
  }

  lemma AssetImageSlash(m: nat)
    requires m < |AssetImage| && AssetImage[m] == '/'
    ensures m == 16
  {
  }

  lemma AssetImageDot(m: nat)
    requires m < |AssetImage| && AssetImage[m] == '.'
    ensures m == 37
  {
  }

  lemma AssetImageNoFiles(k: nat)
    requires k + 6 <= |AssetImage|
    ensures AssetImage[k..k + 6] != "files/"
  {
    var h := AssetImage;
    assert h[k..k + 6][5] == h[k + 5];
    assert h[k..k + 6][0] == h[k];
    if h[k + 5] == '/' {
      AssetImageSlash(k + 5);
      assert h[11] == 'm';
    }
  }

  lemma AssetImageDir(k: nat)
    requires k <= |AssetImage| && DirLen(AssetImage, k) > 0
    ensures k == 10
  {
    var h := AssetImage;
    if k + 6 <= |h| {
      AssetImageNoFiles(k);
    }
    assert h[k..k + 7][6] == h[k + 6];
    AssetImageSlash(k + 6);
  }

  /** In `AssetImage` every match has its parts at the same places. */
  lemma AssetImageParts(x: Match)
    requires ValidMatch(AssetImage, x)
    ensures x.start == 10 && x.dir == 10 && x.marker == 21 && x.dot == 37
  {
    var h := AssetImage;
    assert h[x.marker..x.marker + 3][0] == h[x.marker];
    AssetImageDash(x.marker);
    AssetImageDot(x.dot);
    AssetImageDir(x.dir);
    assert !IsLeadChar(h[9]);
    AllCharsStop(h, x.start, x.dir, IsLeadChar, 9);
  }

  /** A run of characters of class `p` stops before any character outside it. */
  lemma AllCharsStop(h: string, lo: nat, hi: nat, p: char -> bool, j: nat)
    requires lo <= hi <= |h| && AllChars(h, lo, hi, p)
    requires j < |h| && !p(h[j])
    ensures j < lo || hi <= j
  {
  }

  /** The extension of the image name ends at the closing quote. */
  lemma AssetImageEnd(e: nat)
    requires 38 < e <= |AssetImage| && AllChars(AssetImage, 38, e, IsAlnum)
    requires e == |AssetImage| || !IsAlnum(AssetImage[e])
    ensures e == 41
  {
    var h := AssetImage;
    assert IsAlnum(h[39]) && IsAlnum(h[40]) && !IsAlnum(h[41]);
    AllCharsStop(h, 38, e, IsAlnum, 41);
  }

  /** The search at any start position of `AssetImage` either fails or finds the image's name. */
  lemma AssetImageMatch(x: Match)
    requires x.start <= |AssetImage| && MatchAt(AssetImage, x.start) == Some(x)
    ensures x == Match(10, 10, 21, 37, 41)
  {
    AssetImageParts(x);
    AssetImageEnd(x.end);
  }

  /** The scan of `AssetImage` reports the image's file name and nothing else. */
  lemma ScanAssetImageExample()
    ensures MatchedTexts(AssetImage) == [AssetName]
  {
    var h := AssetImage;
    AssetImageWitness();
    ScanEmptyIff(h);
    var r := Scan(h);
    AssetImageMatch(r[0]);
    if |r| > 1 {
      AssetImageMatch(r[1]);
    }
    AssetImageText();
  }

  /**
    listContainerResourceUrls: the texts of the pattern's matches in the markup of the
    container, in order, keeping those the resource-URL test accepts.
    `serialize` stands for phpQuery's rendering of an element as markup and `isResourceUrl`
    for the site's resource-URL test; neither is part of this model.
   */
  function ListContainerResourceUrls(e: Element, serialize: Element -> string, isResourceUrl: string -> bool)
    : (r: seq<string>)
    ensures forall i | 0 <= i < |r| :: InAssetPattern(r[i]) && isResourceUrl(r[i])
    ensures forall i | 0 <= i < |r| :: r[i] in MatchedTexts(serialize(e))
    ensures forall i | 0 <= i < |MatchedTexts(serialize(e))| && isResourceUrl(MatchedTexts(serialize(e))[i]) ::
      MatchedTexts(serialize(e))[i] in r
  {
    var ts := MatchedTexts(serialize(e));
    var r := Filter(ts, isResourceUrl);
    FilterMembers(ts, isResourceUrl);
    forall i | 0 <= i < |r| ensures InAssetPattern(r[i]) {
      var j :| 0 <= j < |ts| && ts[j] == r[i];
    }
    r
  }

  /**
    Each accepted match is listed as many times as it is matched, and a rejected one not at all:
    repeats are kept.
   */
  lemma ListContainerResourceUrlsCounts(e: Element, serialize: Element -> string, isResourceUrl: string -> bool)
    ensures forall u :: (multiset(ListContainerResourceUrls(e, serialize, isResourceUrl))[u] ==
      if isResourceUrl(u) then multiset(MatchedTexts(serialize(e)))[u] else 0)
  {
    FilterMultiset(MatchedTexts(serialize(e)), isResourceUrl);
  }

  /** When the test accepts every match, the list is the matches themselves, in order. */
  lemma ListContainerResourceUrlsAll(e: Element, serialize: Element -> string, isResourceUrl: string -> bool)
    requires forall i | 0 <= i < |MatchedTexts(serialize(e))| :: isResourceUrl(MatchedTexts(serialize(e))[i])
    ensures ListContainerResourceUrls(e, serialize, isResourceUrl) == MatchedTexts(serialize(e))
  {
    FilterAll(MatchedTexts(serialize(e)), isResourceUrl);
  }

  /** The resource URLs of a run of containers: those of each container, in order. */
  function UrlsOf(cs: seq<Element>, serialize: Element -> string, isResourceUrl: string -> bool)
    : (r: seq<string>)
    ensures forall i | 0 <= i < |r| :: InAssetPattern(r[i]) && isResourceUrl(r[i])
  {
    if |cs| == 0 then []
    else ListContainerResourceUrls(cs[0], serialize, isResourceUrl) + UrlsOf(cs[1..], serialize, isResourceUrl)
  }

  /** listResourceUrls: the resource URLs of all containers of the page, in container order. */
  function ListResourceUrls(d: Doc, serialize: Element -> string, isResourceUrl: string -> bool)
    : (r: seq<string>)
    ensures forall i | 0 <= i < |r| :: InAssetPattern(r[i]) && isResourceUrl(r[i])
    ensures |ContainerNodes(d)| == 0 ==> r == []
  {
    UrlsOf(ContainerNodes(d), serialize, isResourceUrl)
  }

  lemma {:induction false} UrlsOfAppend(a: seq<Element>, b: seq<Element>, serialize: Element -> string, isResourceUrl: string -> bool)
    ensures UrlsOf(a + b, serialize, isResourceUrl) == UrlsOf(a, serialize, isResourceUrl) + UrlsOf(b, serialize, isResourceUrl)
    decreases |a|
  {
    if |a| == 0 {
      assert a + b == b;
    } else {
      assert (a + b)[0] == a[0];
      assert (a + b)[1..] == a[1..] + b;
      assert UrlsOf(a + b, serialize, isResourceUrl) ==
        ListContainerResourceUrls(a[0], serialize, isResourceUrl) + UrlsOf(a[1..] + b, serialize, isResourceUrl);
      UrlsOfAppend(a[1..], b, serialize, isResourceUrl);
    }
  }

  /**
    The URLs of a page split in two are those of the first part followed by those of the
    second, and a single container contributes exactly its own list.
   */
  lemma ListResourceUrlsAppend(metas: seq<Attrs>, a: seq<Element>, b: seq<Element>, serialize: Element -> string, isResourceUrl: string -> bool)
    ensures ListResourceUrls(Doc(metas, a + b), serialize, isResourceUrl)
      == ListResourceUrls(Doc(metas, a), serialize, isResourceUrl) + ListResourceUrls(Doc(metas, b), serialize, isResourceUrl)
  {
    FilterAppend(a, b, IsContainer);
    UrlsOfAppend(Filter(a, IsContainer), Filter(b, IsContainer), serialize, isResourceUrl);
  }

  lemma ListResourceUrlsOfOne(metas: seq<Attrs>, e: Element, serialize: Element -> string, isResourceUrl: string -> bool)
    requires IsContainer(e)
    ensures ListResourceUrls(Doc(metas, [e]), serialize, isResourceUrl) == ListContainerResourceUrls(e, serialize, isResourceUrl)
  {
    assert [e][1..] == [];
    assert Filter([e], IsContainer) == [e];
    assert UrlsOf([e], serialize, isResourceUrl) == ListContainerResourceUrls(e, serialize, isResourceUrl) + UrlsOf([], serialize, isResourceUrl);
  }
}

=== FILE: containers.dfy ===
/**
  Content containers: elements marked editable by a class token `sc-content` (unnamed) or
  `sc-content-<name>` (named). During an edit session unnamed containers get a temporary
  name `sc-content-_cnt_<id>`, which is removed again afterwards.

  The source tests class attribute strings with regular expressions. Each one is written
  here character by character over the joined class string (the `...PatternAt` predicates)
  and proved equal to a predicate on the class tokens, which the operations use.
 */
module ContainerLocator {
  import opened Wrappers
  import opened Seqs
  import opened Text
  import opened Document

  const Bare: string := "sc-content"
  const NamedPrefix: string := "sc-content-"
  const TempPrefix: string := "sc-content-_cnt_"

  predicate IsBareToken(t: string) {
    t == Bare
  }

  /** `sc-content-` followed by at least one character. */
  predicate IsNamedToken(t: string) {
    |t| > |NamedPrefix| && t[..|NamedPrefix|] == NamedPrefix
  }

  /** `sc-content-_cnt_` followed by at least one character. */
  predicate IsTempToken(t: string) {
    |t| > |TempPrefix| && t[..|TempPrefix|] == TempPrefix
  }

  predicate IsContainerToken(t: string) {
    IsBareToken(t) || IsNamedToken(t)
  }

  predicate IsContainer(e: Element) {
    exists k | 0 <= k < |e.classes| :: IsContainerToken(e.classes[k])
  }

  // ---------------------------------------------------------------------------
  // The class-attribute patterns, over the class string

  /**
    `(^|\s)sc\-content(\-[^\s]+)*(\s|$)` matches at `i`. After `sc-content` the group
    `(\-[^\s]+)*` followed by `(\s|$)` succeeds exactly when the next character is whitespace
    or the end, or is `-` followed by a non-space character (the group then takes the rest of
    the word).
   */
  predicate ContainerPatternAt(s: string, i: nat)
    requires i <= |s|
  {
    && Boundary(s, i)
    && i + 10 <= |s| && s[i..i + 10] == Bare
    && (|| i + 10 == |s|
        || IsSpace(s[i + 10])
        || (s[i + 10] == '-' && i + 11 < |s| && NotSpace(s[i + 11])))
  }

  predicate ContainerPattern(s: string) {
    exists i | 0 <= i <= |s| :: ContainerPatternAt(s, i)
  }

  /** `(^|\s)sc\-content($|\s)` matches at `i`. */
  predicate BarePatternAt(s: string, i: nat)
    requires i <= |s|
  {
    && Boundary(s, i)
    && i + 10 <= |s| && s[i..i + 10] == Bare
    && (i + 10 == |s| || IsSpace(s[i + 10]))
  }

  /** `(^|\s)sc-content-([^\s]+)` matches at `i`; its group 2 is `s[i + 11..RunEnd(s, i + 11)]`. */
  predicate NamePatternAt(s: string, i: nat)
    requires i <= |s|
  {
    && Boundary(s, i)
    && i + 12 <= |s| && s[i..i + 11] == NamedPrefix
    && NotSpace(s[i + 11])
  }

  /** `(^|\s)(sc\-content\-_cnt_[^\s]+)` matches at `i`; its group 2 is `Run(s, i)`. */
  predicate TempPatternAt(s: string, i: nat)
    requires i <= |s|
  {
    && Boundary(s, i)
    && i + 17 <= |s| && s[i..i + 16] == TempPrefix
    && NotSpace(s[i + 16])
  }

  lemma PrefixesAreWords()
    ensures WfToken(NamedPrefix) && WfToken(TempPrefix)
  {
    WordToken(NamedPrefix);
    WordToken(TempPrefix);
  }

  /** A whitespace-free word at `i` lies inside the run that starts at `i`. */
  lemma RunStartsWith(s: string, i: nat, w: string)
    requires i + |w| <= |s| && s[i..i + |w|] == w
    requires forall j | 0 <= j < |w| :: NotSpace(w[j])
    ensures i + |w| <= RunEnd(s, i)
    ensures Run(s, i)[..|w|] == w
  {
    forall j | i <= j < i + |w| ensures NotSpace(s[j]) {
      assert s[j] == s[i..i + |w|][j - i];
    }
    var t := Run(s, i);
    assert i + |w| <= RunEnd(s, i);
    forall j | 0 <= j < |w| ensures t[j] == w[j] {
      assert t[j] == s[i + j];
      assert w[j] == s[i..i + |w|][j];
    }
  }

  /** Reading the run at `i` is reading `s` from `i`. */
  lemma RunChars(s: string, i: nat)
    requires i <= |s|
    ensures forall j | 0 <= j < |Run(s, i)| :: Run(s, i)[j] == s[i + j]
  {
  }

  lemma ContainerPatternAtIff(s: string, i: nat)
    requires i <= |s|
    ensures ContainerPatternAt(s, i) <==> TokenAt(s, i, IsContainerToken)
  {
    var e := RunEnd(s, i);
    var t := Run(s, i);
    RunChars(s, i);
    if ContainerPatternAt(s, i) {
      RunStartsWith(s, i, Bare);
      if i + 10 == |s| || IsSpace(s[i + 10]) {
        SpanEndUnique(s, i, NotSpace, i + 10);
        assert t == Bare;
      } else {
        var w := s[i..i + 12];
      forall j | 0 <= j < 12 ensures NotSpace(w[j]) {
        if j < 11 {
          PrefixesAreWords();
          assert w[j] == NamedPrefix[j];
        } else {
          assert w[j] == s[i + 11];
        }
      }
      RunStartsWith(s, i, w);
        assert t[..11] == NamedPrefix by {
          forall j | 0 <= j < 10 ensures t[j] == NamedPrefix[j] {
            assert t[j] == s[i..i + 10][j];
          }
        }
      }
    }
    if TokenAt(s, i, IsContainerToken) {
      if IsBareToken(t) {
        assert e == i + 10;
        assert s[i..i + 10] == t;
      } else {
        assert s[i..i + 10] == t[..10] == Bare;
        assert s[i + 10] == t[10] == '-';
        assert s[i + 11] == t[11];
      }
    }
  }

  lemma BarePatternAtIff(s: string, i: nat)
    requires i <= |s|
    ensures BarePatternAt(s, i) <==> TokenAt(s, i, IsBareToken)
  {
    var t := Run(s, i);
    if BarePatternAt(s, i) {
      RunStartsWith(s, i, Bare);
      SpanEndUnique(s, i, NotSpace, i + 10);
    }
    if TokenAt(s, i, IsBareToken) {
      assert RunEnd(s, i) == i + 10;
      assert s[i..i + 10] == t;
    }
  }

  lemma NamePatternAtIff(s: string, i: nat)
    requires i <= |s|
    ensures NamePatternAt(s, i) <==> TokenAt(s, i, IsNamedToken)
    ensures NamePatternAt(s, i) ==> s[i + 11..RunEnd(s, i + 11)] == Run(s, i)[11..]
  {
    var t := Run(s, i);
    RunChars(s, i);
    if NamePatternAt(s, i) {
      var w := s[i..i + 12];
      forall j | 0 <= j < 12 ensures NotSpace(w[j]) {
        if j < 11 {
          PrefixesAreWords();
          assert w[j] == NamedPrefix[j];
        } else {
          assert w[j] == s[i + 11];
        }
      }
      RunStartsWith(s, i, w);
      assert i + 12 <= RunEnd(s, i) && 12 <= |t|;
      assert t[..11] == NamedPrefix by {
        forall j | 0 <= j < 11 ensures t[j] == NamedPrefix[j] {
          assert t[j] == s[i..i + 11][j];
        }
      }
      SpanEndUnique(s, i + 11, NotSpace, RunEnd(s, i));
    }
    if TokenAt(s, i, IsNamedToken) {
      assert s[i..i + 11] == t[..11];
      assert s[i + 11] == t[11];
    }
  }

  lemma TempPatternAtIff(s: string, i: nat)
    requires i <= |s|
    ensures TempPatternAt(s, i) <==> TokenAt(s, i, IsTempToken)
  {
    var t := Run(s, i);
    RunChars(s, i);
    if TempPatternAt(s, i) {
      var w := s[i..i + 17];
      forall j | 0 <= j < 17 ensures NotSpace(w[j]) {
        if j < 16 {
          PrefixesAreWords();
          assert w[j] == TempPrefix[j];
        } else {
          assert w[j] == s[i + 16];
        }
      }
      RunStartsWith(s, i, w);
      assert i + 17 <= RunEnd(s, i) && 17 <= |t|;
      assert t[..16] == TempPrefix by {
        forall j | 0 <= j < 16 ensures t[j] == TempPrefix[j] {
          assert t[j] == s[i..i + 16][j];
        }
      }
    }
    if TokenAt(s, i, IsTempToken) {
      assert s[i..i + 16] == t[..16];
      assert s[i + 16] == t[16];
    }
  }

  /**
    The container pattern of the source finds a match in the class attribute exactly when
    some whitespace-delimited token is `sc-content` or `sc-content-` followed by at least
    one character.
   */
  lemma ContainerPatternIff(e: Element)
    requires WfTokens(e.classes)
    ensures ContainerPattern(ClassAttr(e)) <==> IsContainer(e)
  {
    var s := ClassAttr(e);
    SomeTokenIff(e.classes, IsContainerToken);
    if ContainerPattern(s) {
      var i :| 0 <= i <= |s| && ContainerPatternAt(s, i);
      ContainerPatternAtIff(s, i);
      assert TokenAt(s, i, IsContainerToken);
      assert exists i | 0 <= i <= |Join(e.classes)| :: TokenAt(Join(e.classes), i, IsContainerToken);
      assert exists k | 0 <= k < |e.classes| :: IsContainerToken(e.classes[k]);
    }
    if IsContainer(e) {
      var k :| 0 <= k < |e.classes| && IsContainerToken(e.classes[k]);
      var i :| 0 <= i <= |s| && TokenAt(s, i, IsContainerToken);
      ContainerPatternAtIff(s, i);
    }
  }

  /** A token made of lower-case letters, `-` and `_`. */
  lemma WordToken(t: string)
    requires |t| > 0
    requires forall j | 0 <= j < |t| :: 'a' <= t[j] <= 'z' || t[j] == '-' || t[j] == '_'
    ensures WfToken(t)
  {
  }

  /** Examples of accepted and rejected class attributes. */
  lemma ContainerPatternExamples()
    ensures ContainerPattern("sc-content-box widget")
    ensures !ContainerPattern("my-sc-content-box")
    ensures !ContainerPattern("sc-contentx")
    ensures !ContainerPattern("sc-content-")
  {
    TwoTokenExample();
    PrefixedExample();
    GluedExample();
    EmptyNameExample();
  }

  lemma PrefixedExample()
    ensures !ContainerPattern("my-sc-content-box")
  {
    var t := "my-sc-content-box";
    OneTokenExample(t);
    assert t[..11][0] != NamedPrefix[0];
  }

  lemma GluedExample()
    ensures !ContainerPattern("sc-contentx")
  {
    var t := "sc-contentx";
    OneTokenExample(t);
    assert t[..11][10] != NamedPrefix[10];
  }

  lemma EmptyNameExample()
    ensures !ContainerPattern("sc-content-")
  {
    OneTokenExample("sc-content-");
  }

  lemma TwoTokenExample()
    ensures ContainerPattern("sc-content-box widget")
  {
    var a, b := "sc-content-box", "widget";
    WordToken(a);
    WordToken(b);
    var e := Element("div", map[], [a, b], "");
    assert [a, b][1..] == [b];
    assert Join([b]) == b;
    assert ClassAttr(e) == a + " " + b;
    assert a + " " + b == "sc-content-box widget";
    assert IsContainerToken(e.classes[0]);
    ContainerPatternIff(e);
  }

  /** A class attribute of one token matches the container pattern exactly when that token names a container. */
  lemma OneTokenExample(t: string)
    requires |t| > 0
    requires forall j | 0 <= j < |t| :: 'a' <= t[j] <= 'z' || t[j] == '-' || t[j] == '_'
    ensures ContainerPattern(t) <==> IsContainerToken(t)
  {
    WordToken(t);
    var e := Element("div", map[], [t], "");
    assert ClassAttr(e) == t;
    ContainerPatternIff(e);
  }

  /** The unnamed-container pattern finds a match exactly when `sc-content` is one of the tokens. */
  lemma BarePatternIff(ts: seq<string>)
    requires WfTokens(ts)
    ensures (exists i | 0 <= i <= |Join(ts)| :: BarePatternAt(Join(ts), i)) <==> Bare in ts
  {
    var s := Join(ts);
    SomeTokenIff(ts, IsBareToken);
    if exists i | 0 <= i <= |s| :: BarePatternAt(s, i) {
      var i :| 0 <= i <= |s| && BarePatternAt(s, i);
      BarePatternAtIff(s, i);
      assert TokenAt(s, i, IsBareToken);
      var k :| 0 <= k < |ts| && IsBareToken(ts[k]);
    }
    if Bare in ts {
      var k :| 0 <= k < |ts| && ts[k] == Bare;
      assert IsBareToken(ts[k]);
      var i :| 0 <= i <= |s| && TokenAt(s, i, IsBareToken);
      BarePatternAtIff(s, i);
    }
  }

  // ---------------------------------------------------------------------------
  // Container names

  /** The name of a container: what follows `sc-content-` in its first named token. */
  function NameOf(ts: seq<string>): Option<string>
  {
    match First(ts, IsNamedToken)
    case Some(t) => Some(t[|NamedPrefix|..])
    case None => None
  }

  /**
    The leftmost match of the naming pattern of the source in the class attribute captures
    exactly `NameOf`: there is no match when there is no named token, and otherwise group 2
    of the leftmost match is the name.
   */
  lemma NamePatternLeftmost(ts: seq<string>)
    requires WfTokens(ts)
    ensures NameOf(ts).None? <==> forall i | 0 <= i <= |Join(ts)| :: !NamePatternAt(Join(ts), i)
    ensures NameOf(ts).Some? ==>
      exists i | 0 <= i <= |Join(ts)| ::
        && NamePatternAt(Join(ts), i)
        && (forall j | 0 <= j < i :: !NamePatternAt(Join(ts), j))
        && NameOf(ts).value == Join(ts)[i + 11..RunEnd(Join(ts), i + 11)]
  {
    var s := Join(ts);
    LeftmostIsFirstToken(ts, IsNamedToken);
    var l := Leftmost(s, IsNamedToken, 0);
    if l.None? {
      NamePatternNone(s);
    } else {
      var i := l.value;
      NamePatternFirst(s, i);
      assert First(ts, IsNamedToken) == Some(Run(s, i));
      assert NameOf(ts).value == s[i + 11..RunEnd(s, i + 11)];
    }
  }

  lemma NamePatternNone(s: string)
    requires Leftmost(s, IsNamedToken, 0).None?
    ensures forall i | 0 <= i <= |s| :: !NamePatternAt(s, i)
  {
    forall i | 0 <= i <= |s| ensures !NamePatternAt(s, i) {
      NamePatternAtIff(s, i);
    }
  }

  lemma NamePatternFirst(s: string, i: nat)
    requires Leftmost(s, IsNamedToken, 0) == Some(i)
    ensures i <= |s| && NamePatternAt(s, i)
    ensures forall j | 0 <= j < i :: !NamePatternAt(s, j)
    ensures Run(s, i)[11..] == s[i + 11..RunEnd(s, i + 11)]
  {
    NamePatternAtIff(s, i);
    forall j | 0 <= j < i ensures !NamePatternAt(s, j) {
      NamePatternAtIff(s, j);
    }
  }

  /**
    The leftmost match of the cleanup pattern of the source captures, as group 2, the first
    temporary-name token.
   */
  lemma TempPatternLeftmost(ts: seq<string>)
    requires WfTokens(ts)
    ensures First(ts, IsTempToken).None? <==> forall i | 0 <= i <= |Join(ts)| :: !TempPatternAt(Join(ts), i)
    ensures First(ts, IsTempToken).Some? ==>
      exists i | 0 <= i <= |Join(ts)| ::
        && TempPatternAt(Join(ts), i)
        && (forall j | 0 <= j < i :: !TempPatternAt(Join(ts), j))
        && First(ts, IsTempToken).value == Run(Join(ts), i)
  {
    var s := Join(ts);
    forall i | 0 <= i <= |s| ensures TempPatternAt(s, i) <==> TokenAt(s, i, IsTempToken) {
      TempPatternAtIff(s, i);
    }
    LeftmostIsFirstToken(ts, IsTempToken);
  }

  /** The names of the given containers, in order, skipping those without a named token. */
  function Names(cs: seq<Element>): (r: seq<string>)
    ensures |r| <= |cs|
    ensures forall i | 0 <= i < |r| :: exists k | 0 <= k < |cs| :: NamedPrefix + r[i] in cs[k].classes
  {
    if |cs| == 0 then []
    else
      var rest := Names(cs[1..]);
      match NameOf(cs[0].classes)
      case Some(n) =>
        NameInClasses(cs[0].classes);
        [n] + rest
      case None => rest
  }

  lemma NameInClasses(ts: seq<string>)
    ensures NameOf(ts).Some? ==> NamedPrefix + NameOf(ts).value in ts && |NameOf(ts).value| > 0
  {
    match FirstIndex(ts, IsNamedToken, 0)
    case Some(k) =>
      assert NamedPrefix + ts[k][|NamedPrefix|..] == ts[k];
    case None =>
  }

  /** containerNodes: the containers of the page, in document order. */
  function ContainerNodes(d: Doc): (r: seq<Element>)
    ensures forall i | 0 <= i < |r| :: IsContainer(r[i]) && r[i] in d.body
    ensures forall k | 0 <= k < |d.body| && IsContainer(d.body[k]) :: d.body[k] in r
  {
    FilterMembers(d.body, IsContainer);
    Filter(d.body, IsContainer)
  }

  /** containers(): the container names of the page, in document order, repeats kept. */
  function Containers(d: Doc): (r: seq<string>)
    ensures |r| <= |ContainerNodes(d)|
    ensures forall i | 0 <= i < |r| :: |r[i]| > 0
    ensures forall i | 0 <= i < |r| ::
      exists k | 0 <= k < |d.body| :: IsContainer(d.body[k]) && NamedPrefix + r[i] in d.body[k].classes
    ensures forall k | 0 <= k < |d.body| && IsContainer(d.body[k]) && NameOf(d.body[k].classes).Some? ::
      NameOf(d.body[k].classes).value in r
  {
    var cs := ContainerNodes(d);
    var r := Names(cs);
    assert forall i | 0 <= i < |r| :: |r[i]| > 0 by {
      NamesNonEmpty(cs);
    }
    NamesComplete(d.body);
    r
  }

  /** Every named container of `a` contributes its name. */
  lemma {:induction false} NamesComplete(a: seq<Element>)
    ensures forall k | 0 <= k < |a| && IsContainer(a[k]) && NameOf(a[k].classes).Some? ::
      NameOf(a[k].classes).value in Names(Filter(a, IsContainer))
    decreases |a|
  {
    if |a| > 0 {
      NamesComplete(a[1..]);
      NamesStep(a);
      NamesOfOne(a[0]);
      forall k | 0 <= k < |a| && IsContainer(a[k]) && NameOf(a[k].classes).Some?
        ensures NameOf(a[k].classes).value in Names(Filter(a, IsContainer))
      {
        if k > 0 {
          assert a[k] == a[1..][k - 1];
        }
      }
    }
  }

  lemma {:induction false} NamesNonEmpty(cs: seq<Element>)
    ensures forall i | 0 <= i < |Names(cs)| :: |Names(cs)[i]| > 0
    decreases |cs|
  {
    if |cs| > 0 {
      NamesNonEmpty(cs[1..]);
      NameInClasses(cs[0].classes);
    }
  }

  lemma {:induction false} NamesAppend(a: seq<Element>, b: seq<Element>)
    ensures Names(a + b) == Names(a) + Names(b)
    decreases |a|
  {
    if |a| == 0 {
      assert a + b == b;
    } else {
      assert (a + b)[0] == a[0];
      assert (a + b)[1..] == a[1..] + b;
      NamesAppend(a[1..], b);
    }
  }

  /** The names of a page split in two are the names of the first part followed by those of the second. */
  lemma ContainersAppend(metas: seq<Attrs>, a: seq<Element>, b: seq<Element>)
    ensures Containers(Doc(metas, a + b)) == Containers(Doc(metas, a)) + Containers(Doc(metas, b))
  {
    FilterAppend(a, b, IsContainer);
    NamesAppend(Filter(a, IsContainer), Filter(b, IsContainer));
  }

  /** The names of one element: its name if it is a named container, nothing otherwise. */
  lemma NamesOfOne(e: Element)
    ensures Names(Filter([e], IsContainer)) ==
      if IsContainer(e) && NameOf(e.classes).Some? then [NameOf(e.classes).value] else []
  {
    assert [e][1..] == [];
  }

  /** The names of a non-empty run of elements: those of its head, then those of its tail. */
  lemma NamesStep(a: seq<Element>)
    requires |a| > 0
    ensures Names(Filter(a, IsContainer)) == Names(Filter([a[0]], IsContainer)) + Names(Filter(a[1..], IsContainer))
  {
    assert a == [a[0]] + a[1..];
    FilterAppend([a[0]], a[1..], IsContainer);
    NamesAppend(Filter([a[0]], IsContainer), Filter(a[1..], IsContainer));
  }

  lemma {:induction false} NamesOnlyReadClasses(a: seq<Element>, b: seq<Element>)
    requires |a| == |b|
    requires forall k | 0 <= k < |a| :: a[k].classes == b[k].classes
    ensures Names(Filter(a, IsContainer)) == Names(Filter(b, IsContainer))
    decreases |a|
  {
    if |a| > 0 {
      NamesOnlyReadClasses(a[1..], b[1..]);
      NamesStep(a);
      NamesStep(b);
      NamesOfOne(a[0]);
      NamesOfOne(b[0]);
      assert a[0].classes == b[0].classes;
    }
  }

  /** Names depend on the class lists only. */
  lemma ContainersOnlyReadClasses(d: Doc, d': Doc)
    requires |d.body| == |d'.body|
    requires forall k | 0 <= k < |d.body| :: d.body[k].classes == d'.body[k].classes
    ensures Containers(d) == Containers(d')
  {
    NamesOnlyReadClasses(d.body, d'.body);
  }

  /**
    A page of one element lists that element's name when it is a container with a
    `sc-content-<name>` token (the first such token when there are several), and nothing otherwise.
   */
  lemma ContainersOfOne(metas: seq<Attrs>, e: Element)
    ensures Containers(Doc(metas, [e])) ==
      if IsContainer(e) && NameOf(e.classes).Some? then [NameOf(e.classes).value] else []
  {
    NamesOfOne(e);
  }

  /** Three containers named hero, footer, hero give the names in that order, with the repeat. */
  lemma ContainersExample(x: Element, y: Element, z: Element, w: Element)
    requires x.classes == ["sc-content-hero"]
    requires y.classes == ["intro", "sc-content-footer"]
    requires z.classes == ["sc-content-hero", "wide"]
    requires w.classes == ["sc-content"]
    ensures Containers(Doc([], [x, w, y, z])) == ["hero", "footer", "hero"]
  {
    ExampleNames(x, y, z, w);
  }

  lemma ExampleNames(x: Element, y: Element, z: Element, w: Element)
    requires x.classes == ["sc-content-hero"]
    requires y.classes == ["intro", "sc-content-footer"]
    requires z.classes == ["sc-content-hero", "wide"]
    requires w.classes == ["sc-content"]
    ensures Names(Filter([x, w, y, z], IsContainer)) == ["hero", "footer", "hero"]
  {
    var a := [x, w, y, z];
    ExampleTail(y, z, w);
    assert x.classes[0] == NamedPrefix + "hero";
    NamesOfExample(x, "hero", 0);
    NamesStep(a);
    assert a[1..] == [w, y, z];
  }

  lemma ExampleTail(y: Element, z: Element, w: Element)
    requires y.classes == ["intro", "sc-content-footer"]
    requires z.classes == ["sc-content-hero", "wide"]
    requires w.classes == ["sc-content"]
    ensures Names(Filter([w, y, z], IsContainer)) == ["footer", "hero"]
  {
    ExamplePair(y, z);
    assert !IsNamedToken(w.classes[0]);
    NamesOfUnnamed(w);
    NamesStep([w, y, z]);
    assert [w, y, z][1..] == [y, z];
  }

  lemma ExamplePair(y: Element, z: Element)
    requires y.classes == ["intro", "sc-content-footer"]
    requires z.classes == ["sc-content-hero", "wide"]
    ensures Names(Filter([y, z], IsContainer)) == ["footer", "hero"]
  {
    assert y.classes[1] == NamedPrefix + "footer";
    assert !IsNamedToken(y.classes[0]);
    NamesOfExample(y, "footer", 1);
    assert z.classes[0] == NamedPrefix + "hero";
    NamesOfExample(z, "hero", 0);
    NamesStep([y, z]);
    assert [y, z][1..] == [z];
  }

  /** A container named only by a temporary token is listed under that temporary name. */
  lemma ContainersListTempNames(metas: seq<Attrs>, e: Element, id: string)
    requires |id| > 0
    requires e.classes == [TempPrefix + id]
    ensures Containers(Doc(metas, [e])) == ["_cnt_" + id]
  {
    var t := TempPrefix + id;
    assert t == NamedPrefix + ("_cnt_" + id);
    assert t[..|NamedPrefix|] == NamedPrefix;
    NamesOfExample(e, "_cnt_" + id, 0);
  }

  lemma NamesOfUnnamed(e: Element)
    requires forall j | 0 <= j < |e.classes| :: !IsNamedToken(e.classes[j])
    ensures Names(Filter([e], IsContainer)) == []
  {
    assert FirstIndex(e.classes, IsNamedToken, 0) == None;
    NamesOfOne(e);
  }

  lemma NamesOfExample(e: Element, n: string, k: nat)
    requires k < |e.classes| && e.classes[k] == NamedPrefix + n && |n| > 0
    requires forall j | 0 <= j < k :: !IsNamedToken(e.classes[j])
    ensures Names(Filter([e], IsContainer)) == [n]
  {
    var t := e.classes[k];
    assert t[..|NamedPrefix|] == NamedPrefix;
    assert IsContainerToken(t);
    assert FirstIndex(e.classes, IsNamedToken, 0) == Some(k);
    assert t[|NamedPrefix|..] == n;
    NamesOfOne(e);
  }

  // ---------------------------------------------------------------------------
  // Temporary names

  /** phpQuery `addClass`: appends the class unless the element already has it. */
  function AddClass(ts: seq<string>, c: string): seq<string>
  {
    if c in ts then ts else ts + [c]
  }

  /** phpQuery `removeClass`: drops every occurrence of the class. */
  function RemoveClass(ts: seq<string>, c: string): seq<string>
  {
    Filter(ts, t => t != c)
  }

  function NormalizeElement(e: Element, id: string): Element
  {
    if IsContainer(e) && Bare in e.classes then e.(classes := AddClass(e.classes, TempPrefix + id)) else e
  }

  /**
    normalizeContainerNames: every container carrying the bare `sc-content` token gets the
    temporary token `sc-content-_cnt_<id>`; `ids[k]` is the fresh id drawn for the element
    at position `k`.
   */
  function NormalizeContainerNames(d: Doc, ids: seq<string>): (r: Doc)
    requires |ids| == |d.body|
    ensures r.metas == d.metas && |r.body| == |d.body|
    ensures forall k | 0 <= k < |d.body| ::
      && r.body[k].tag == d.body[k].tag
      && r.body[k].attrs == d.body[k].attrs
      && r.body[k].inner == d.body[k].inner
    ensures forall k | 0 <= k < |d.body| && Bare !in d.body[k].classes :: r.body[k] == d.body[k]
    ensures forall k | 0 <= k < |d.body| && Bare in d.body[k].classes && TempPrefix + ids[k] !in d.body[k].classes ::
      r.body[k].classes == d.body[k].classes + [TempPrefix + ids[k]]
    ensures forall k | 0 <= k < |d.body| :: IsContainer(r.body[k]) == IsContainer(d.body[k])
    ensures (forall k | 0 <= k < |ids| :: |ids[k]| > 0) ==>
      forall k | 0 <= k < |d.body| && IsContainer(r.body[k]) :: NameOf(r.body[k].classes).Some?
    ensures WfDoc(d) && (forall k | 0 <= k < |ids| :: WfToken(ids[k])) ==> WfDoc(r)
  {
    var r := Doc(d.metas, seq(|d.body|, k requires 0 <= k < |d.body| => NormalizeElement(d.body[k], ids[k])));
    forall k | 0 <= k < |d.body| ensures IsContainer(r.body[k]) == IsContainer(d.body[k]) {
      NormalizeKeepsContainer(d.body[k], ids[k]);
    }
    forall k | 0 <= k < |d.body| && IsContainer(r.body[k]) && |ids[k]| > 0
      ensures NameOf(r.body[k].classes).Some?
    {
      NormalizeNames(d.body[k], ids[k]);
    }
    forall k | 0 <= k < |d.body| && WfTokens(d.body[k].classes) && WfToken(ids[k])
      ensures WfTokens(r.body[k].classes)
    {
      WfTempToken(ids[k]);
    }
    r
  }

  lemma NormalizeKeepsContainer(e: Element, id: string)
    ensures IsContainer(NormalizeElement(e, id)) == IsContainer(e)
  {
    var e' := NormalizeElement(e, id);
    if IsContainer(e) {
      var k :| 0 <= k < |e.classes| && IsContainerToken(e.classes[k]);
      assert e'.classes[k] == e.classes[k];
    }
    if IsContainer(e') && e' != e {
      var k :| 0 <= k < |e'.classes| && IsContainerToken(e'.classes[k]);
      if k == |e.classes| {
        var j :| 0 <= j < |e.classes| && e.classes[j] == Bare;
        assert IsContainerToken(e.classes[j]);
      } else {
        assert e.classes[k] == e'.classes[k];
      }
    }
  }

  lemma WfTempToken(id: string)
    requires WfToken(id)
    ensures WfToken(TempPrefix + id)
  {
    var t := TempPrefix + id;
    forall j | 0 <= j < |t| ensures NotSpace(t[j]) {
      if j >= |TempPrefix| {
        assert t[j] == id[j - |TempPrefix|];
      }
    }
  }

  /** After normalization a container always has a name. */
  lemma NormalizeNames(e: Element, id: string)
    requires |id| > 0
    requires IsContainer(NormalizeElement(e, id))
    ensures NameOf(NormalizeElement(e, id).classes).Some?
  {
    var e' := NormalizeElement(e, id);
    NormalizeKeepsContainer(e, id);
    var k :| 0 <= k < |e.classes| && IsContainerToken(e.classes[k]);
    if IsNamedToken(e.classes[k]) {
      assert e'.classes[k] == e.classes[k];
      assert FirstIndex(e'.classes, IsNamedToken, 0).Some?;
    } else {
      var t := TempPrefix + id;
      assert t[..|NamedPrefix|] == NamedPrefix;
      assert IsNamedToken(t);
      assert t in e'.classes;
      var j :| 0 <= j < |e'.classes| && e'.classes[j] == t;
      assert FirstIndex(e'.classes, IsNamedToken, 0).Some?;
    }
  }

  /** What `removeClass` keeps: every other token, and never the removed one. */
  lemma RemoveClassMembers(ts: seq<string>, c: string)
    ensures c !in RemoveClass(ts, c)
    ensures forall i | 0 <= i < |ts| && ts[i] != c :: ts[i] in RemoveClass(ts, c)
    ensures forall i | 0 <= i < |RemoveClass(ts, c)| :: RemoveClass(ts, c)[i] in ts
  {
    FilterMembers(ts, t => t != c);
  }

  function CleanupElement(e: Element): Element
  {
    if IsContainer(e) then
      match First(e.classes, IsTempToken)
      case Some(t) => e.(classes := RemoveClass(e.classes, t))
      case None => e
    else e
  }

  /**
    cleanupContainerNames: in every container, the first temporary-name token is removed
    (with any repeat of the same token); everything else is left alone.
   */
  function CleanupContainerNames(d: Doc): (r: Doc)
    ensures r.metas == d.metas && |r.body| == |d.body|
    ensures forall k | 0 <= k < |d.body| ::
      && r.body[k].tag == d.body[k].tag
      && r.body[k].attrs == d.body[k].attrs
      && r.body[k].inner == d.body[k].inner
    ensures forall k | 0 <= k < |d.body| && !IsContainer(d.body[k]) :: r.body[k] == d.body[k]
    ensures forall k | 0 <= k < |d.body| && First(d.body[k].classes, IsTempToken).None? :: r.body[k] == d.body[k]
    ensures forall k | 0 <= k < |d.body| && IsContainer(d.body[k]) && First(d.body[k].classes, IsTempToken).Some? ::
      var t := First(d.body[k].classes, IsTempToken).value;
      && IsTempToken(t) && t in d.body[k].classes
      && t !in r.body[k].classes
      && forall i | 0 <= i < |d.body[k].classes| && d.body[k].classes[i] != t :: d.body[k].classes[i] in r.body[k].classes
    ensures forall k | 0 <= k < |d.body| ::
      forall i | 0 <= i < |r.body[k].classes| :: r.body[k].classes[i] in d.body[k].classes
    ensures WfDoc(d) ==> WfDoc(r)
  {
    var r := Doc(d.metas, seq(|d.body|, k requires 0 <= k < |d.body| => CleanupElement(d.body[k])));
    forall k | 0 <= k < |d.body|
      ensures IsContainer(d.body[k]) && First(d.body[k].classes, IsTempToken).Some? ==>
        var t := First(d.body[k].classes, IsTempToken).value;
        && t !in r.body[k].classes
        && forall i | 0 <= i < |d.body[k].classes| && d.body[k].classes[i] != t :: d.body[k].classes[i] in r.body[k].classes
      ensures forall i | 0 <= i < |r.body[k].classes| :: r.body[k].classes[i] in d.body[k].classes
      ensures WfTokens(d.body[k].classes) ==> WfTokens(r.body[k].classes)
    {
      if IsContainer(d.body[k]) && First(d.body[k].classes, IsTempToken).Some? {
        RemoveClassMembers(d.body[k].classes, First(d.body[k].classes, IsTempToken).value);
      }
      if WfTokens(d.body[k].classes) {
        forall i | 0 <= i < |r.body[k].classes| ensures WfToken(r.body[k].classes[i]) {
          var j :| 0 <= j < |d.body[k].classes| && d.body[k].classes[j] == r.body[k].classes[i];
        }
      }
    }
    r
  }

  /** No element carries a temporary-name token. */
  predicate NoTempNames(d: Doc)
  {
    forall k, i | 0 <= k < |d.body| && 0 <= i < |d.body[k].classes| :: !IsTempToken(d.body[k].classes[i])
  }

  lemma CleanupUndoesNormalizeElement(e: Element, id: string)
    requires |id| > 0
    requires forall i | 0 <= i < |e.classes| :: !IsTempToken(e.classes[i])
    ensures CleanupElement(NormalizeElement(e, id)) == e
  {
    var e' := NormalizeElement(e, id);
    NormalizeKeepsContainer(e, id);
    if e' == e {
      assert FirstIndex(e.classes, IsTempToken, 0).None?;
    } else {
      var t := TempPrefix + id;
      assert IsTempToken(t);
      assert t !in e.classes;
      assert e'.classes == e.classes + [t];
      assert forall j | 0 <= j < |e.classes| :: e'.classes[j] == e.classes[j];
      assert IsTempToken(e'.classes[|e.classes|]);
      var fi := FirstIndex(e'.classes, IsTempToken, 0);
      assert fi.Some?;
      assert fi.value == |e.classes|;
      FilterAppend(e.classes, [t], u => u != t);
      FilterAll(e.classes, u => u != t);
    }
  }

  /**
    On a page without temporary names, cleaning up after normalizing restores the page exactly:
    each class list gets back the tokens it had, in the same order.
   */
  lemma CleanupUndoesNormalize(d: Doc, ids: seq<string>)
    requires |ids| == |d.body|
    requires forall k | 0 <= k < |ids| :: |ids[k]| > 0
    requires NoTempNames(d)
    ensures CleanupContainerNames(NormalizeContainerNames(d, ids)) == d
  {
    var r := CleanupContainerNames(NormalizeContainerNames(d, ids));
    forall k | 0 <= k < |d.body| ensures r.body[k] == d.body[k] {
      CleanupUndoesNormalizeElement(d.body[k], ids[k]);
    }
  }

  // ---------------------------------------------------------------------------
  // Content

  /**
    setContainerContent: every element carrying the class `sc-content-<name>` gets `content`
    as its inner markup; nothing else changes.
   */
  function SetContainerContent(d: Doc, name: string, content: string): (r: Doc)
    ensures r.metas == d.metas && |r.body| == |d.body|
    ensures forall k | 0 <= k < |d.body| && NamedPrefix + name in d.body[k].classes :: r.body[k].inner == content
    ensures forall k | 0 <= k < |d.body| :: r.body[k].(inner := d.body[k].inner) == d.body[k]
    ensures forall k | 0 <= k < |d.body| && NamedPrefix + name !in d.body[k].classes :: r.body[k] == d.body[k]
    ensures Containers(r) == Containers(d)
  {
    var r := Doc(d.metas, seq(|d.body|, k requires 0 <= k < |d.body| =>
      if NamedPrefix + name in d.body[k].classes then d.body[k].(inner := content) else d.body[k]));
    ContainersOnlyReadClasses(d, r);
    r
  }

  /** Every listed container name addresses at least one container that setContainerContent rewrites. */
  lemma SetContainerContentReachesNamed(d: Doc, name: string, content: string)
    requires name in Containers(d)
    ensures exists k | 0 <= k < |d.body| ::
      IsContainer(d.body[k]) && SetContainerContent(d, name, content).body[k].inner == content
  {
    var i :| 0 <= i < |Containers(d)| && Containers(d)[i] == name;
    var k :| 0 <= k < |d.body| && IsContainer(d.body[k]) && NamedPrefix + name in d.body[k].classes;
  }
}

=== FILE: document.dfy ===
/**
  The parsed page, abstracted from the HTML tree.

  The head is the sequence of its `<meta>` elements, each given by its attribute map.
  The body is the sequence of its elements in document order; each element has a tag name,
  an attribute map (without `class`), its class attribute as a token list, and its inner
  markup, which is kept as opaque text.
 */
module Document {
  import opened Wrappers
  import opened Text

  type Attrs = map<string, string>

  datatype Element = Element(tag: string, attrs: Attrs, classes: seq<string>, inner: string)

  datatype Doc = Doc(metas: seq<Attrs>, body: seq<Element>)

  /** Reading an attribute: `None` when it is absent (phpQuery's `attr` then yields `null`). */
  function Attr(m: Attrs, name: string): Option<string>
  {
    if name in m then Some(m[name]) else None
  }

  /** The class attribute as the source reads it with `attr('class')`. */
  function ClassAttr(e: Element): string
  {
    Join(e.classes)
  }

  /** Every class list consists of proper tokens. */
  predicate WfDoc(d: Doc)
  {
    forall k | 0 <= k < |d.body| :: WfTokens(d.body[k].classes)
  }
}

=== FILE: metas.dfy ===
/**
  The `<meta>` markers in the page head: the robots no-index marker, the page description,
  and the application marker that carries the page id.

  A meta tag is its attribute map. The selectors `meta[content="noindex"]`,
  `meta[name="description"]` and `meta[content="sitecake"]` become predicates on that map, and
  prepending markup to the head puts the new tag first among the head's meta tags.
 */
module MetaMarkers {
  import opened Wrappers
  import opened Seqs
  import opened Document

  /** The attribute `a` is present with the value `v`: the selector `meta[a="v"]`. */
  predicate HasAttr(m: Attrs, a: string, v: string) {
    a in m && m[a] == v
  }

  // ---------------------------------------------------------------------------
  // Robots no-index

  predicate IsNoIndex(m: Attrs) {
    HasAttr(m, "content", "noindex")
  }

  predicate NotNoIndex(m: Attrs) {
    !IsNoIndex(m)
  }

  /** `<meta name="robots" content="noindex"/>` */
  const NoIndexMeta: Attrs := map["name" := "robots", "content" := "noindex"]

  /** isRobotsNoIndex: some meta tag has `content="noindex"`. */
  function IsRobotsNoIndex(d: Doc): (r: bool)
    ensures r <==> exists i | 0 <= i < |d.metas| :: IsNoIndex(d.metas[i])
  {
    var f := Filter(d.metas, IsNoIndex);
    FilterMembers(d.metas, IsNoIndex);
    assert |f| > 0 ==> f[0] in d.metas;
    |f| > 0
  }

  /** addRobotsNoIndex: prepends the no-index tag unless one is present. */
  function AddRobotsNoIndex(d: Doc): (r: Doc)
    ensures IsRobotsNoIndex(r)
    ensures r.body == d.body
    ensures Filter(r.metas, NotNoIndex) == Filter(d.metas, NotNoIndex)
    ensures Count(r.metas, IsNoIndex) == if IsRobotsNoIndex(d) then Count(d.metas, IsNoIndex) else 1
    ensures IsRobotsNoIndex(d) ==> r == d
  {
    if IsRobotsNoIndex(d) then d
    else
      var r := d.(metas := [NoIndexMeta] + d.metas);
      assert IsNoIndex(r.metas[0]);
      FilterAppend([NoIndexMeta], d.metas, IsNoIndex);
      FilterAppend([NoIndexMeta], d.metas, NotNoIndex);
      FilterNone(d.metas, IsNoIndex);
      r
  }

  /** removeRobotsNoIndex: deletes every no-index tag and nothing else. */
  function RemoveRobotsNoIndex(d: Doc): (r: Doc)
    ensures !IsRobotsNoIndex(r)
    ensures r.body == d.body
    ensures Filter(r.metas, NotNoIndex) == Filter(d.metas, NotNoIndex)
  {
    var r := d.(metas := Filter(d.metas, NotNoIndex));
    FilterIdempotent(d.metas, NotNoIndex);
    r
  }

  /** Adding the no-index tag twice is adding it once. */
  lemma AddRobotsNoIndexIdempotent(d: Doc)
    ensures AddRobotsNoIndex(AddRobotsNoIndex(d)) == AddRobotsNoIndex(d)
  {
  }

  /** After adding to a page without one, there is exactly one no-index tag; removing it restores the page's other tags. */
  lemma AddThenRemoveRobotsNoIndex(d: Doc)
    ensures !IsRobotsNoIndex(d) ==> Count(AddRobotsNoIndex(d).metas, IsNoIndex) == 1
    ensures RemoveRobotsNoIndex(AddRobotsNoIndex(d)) == RemoveRobotsNoIndex(d)
  {
  }

  // ---------------------------------------------------------------------------
  // Description

  predicate IsDescription(m: Attrs) {
    HasAttr(m, "name", "description")
  }

  predicate NotDescription(m: Attrs) {
    !IsDescription(m)
  }

  /** `<meta name="description" content="text"/>`, with `text` read back as written. */
  function DescriptionMeta(text: string): Attrs {
    map["name" := "description", "content" := text]
  }

  /**
    getPageDescription: the `content` of the first description tag, `""` when the page has none.
    A description tag without `content` yields `None`, phpQuery's `null`.
   */
  function GetPageDescription(d: Doc): (r: Option<string>)
    ensures (forall i | 0 <= i < |d.metas| :: !IsDescription(d.metas[i])) ==> r == Some("")
    ensures forall i | 0 <= i < |d.metas| && IsDescription(d.metas[i]) && (forall j | 0 <= j < i :: !IsDescription(d.metas[j])) ::
      r == Attr(d.metas[i], "content")
  {
    match FirstIndex(d.metas, IsDescription, 0)
    case None => Some("")
    case Some(i) => Attr(d.metas[i], "content")
  }

  /** The meta tag with its `content` set to `text` when it is a description tag. */
  function SetContent(m: Attrs, text: string): Attrs {
    if IsDescription(m) then m["content" := text] else m
  }

  lemma SetContentFacts(m: Attrs, text: string)
    ensures IsDescription(SetContent(m, text)) == IsDescription(m)
    ensures IsDescription(m) ==> HasAttr(SetContent(m, text), "content", text)
    ensures HasAttr(m, "content", text) ==> SetContent(m, text) == m
    ensures !IsDescription(m) ==> SetContent(m, text) == m
    ensures SetContent(m, text).Keys - {"content"} == m.Keys - {"content"}
    ensures forall a | a in m && a != "content" :: a in SetContent(m, text) && SetContent(m, text)[a] == m[a]
  {
    assert "content" != "name";
  }

  /**
    `m'` is `m` with at most its `content` changed: a description tag stays one, any other tag
    is the same, and every attribute but `content` is kept with its value.
   */
  predicate KeepsAllButContent(m: Attrs, m': Attrs) {
    && IsDescription(m') == IsDescription(m)
    && (!IsDescription(m) ==> m' == m)
    && m'.Keys - {"content"} == m.Keys - {"content"}
    && forall a | a in m && a != "content" :: a in m' && m'[a] == m[a]
  }

  /**
    setPageDescription: the empty text removes every description tag; otherwise every
    description tag gets the text as its content, and a page without one gets a new tag
    in front of the others.
   */
  function SetPageDescription(d: Doc, text: string): (r: Doc)
    ensures r.body == d.body
    ensures GetPageDescription(r) == Some(text)
    ensures Filter(r.metas, NotDescription) == Filter(d.metas, NotDescription)
    ensures text == "" ==> forall i | 0 <= i < |r.metas| :: !IsDescription(r.metas[i])
    ensures forall i | 0 <= i < |r.metas| && IsDescription(r.metas[i]) :: HasAttr(r.metas[i], "content", text)
    ensures text != "" ==> Count(r.metas, IsDescription) == if Count(d.metas, IsDescription) == 0 then 1 else Count(d.metas, IsDescription)
    ensures text != "" && (exists i | 0 <= i < |d.metas| :: IsDescription(d.metas[i])) ==>
      && |r.metas| == |d.metas|
      && forall i | 0 <= i < |d.metas| :: KeepsAllButContent(d.metas[i], r.metas[i])
  {
    if text == "" then
      d.(metas := WithoutDescriptions(d.metas))
    else if FirstIndex(d.metas, IsDescription, 0).Some? then
      FilterNone(d.metas, IsDescription);
      d.(metas := SetContents(d.metas, text))
    else
      d.(metas := WithDescription(d.metas, text))
  }

  /** The meta tags with every description tag removed. */
  function WithoutDescriptions(metas: seq<Attrs>): (ms: seq<Attrs>)
    ensures forall i | 0 <= i < |ms| :: !IsDescription(ms[i])
    ensures Filter(ms, NotDescription) == Filter(metas, NotDescription)
  {
    FilterIdempotent(metas, NotDescription);
    Filter(metas, NotDescription)
  }

  /** A new description tag in front of `metas`, which has none. */
  function WithDescription(metas: seq<Attrs>, text: string): (ms: seq<Attrs>)
    requires forall i | 0 <= i < |metas| :: !IsDescription(metas[i])
    ensures |ms| == |metas| + 1
    ensures IsDescription(ms[0]) && HasAttr(ms[0], "content", text)
    ensures forall i | 1 <= i < |ms| :: ms[i] == metas[i - 1]
    ensures Filter(ms, NotDescription) == Filter(metas, NotDescription)
    ensures Count(ms, IsDescription) == 1
  {
    var ms := [DescriptionMeta(text)] + metas;
    FilterAppend([DescriptionMeta(text)], metas, NotDescription);
    FilterAppend([DescriptionMeta(text)], metas, IsDescription);
    FilterNone(metas, IsDescription);
    ms
  }

  /** `attr('content', text)` on every tag of `metas`: it takes effect on the description tags only. */
  function SetContents(metas: seq<Attrs>, text: string): (ms: seq<Attrs>)
    ensures |ms| == |metas|
    ensures forall i | 0 <= i < |metas| :: KeepsAllButContent(metas[i], ms[i])
    ensures forall i | 0 <= i < |ms| && IsDescription(ms[i]) :: HasAttr(ms[i], "content", text)
    ensures Filter(ms, NotDescription) == Filter(metas, NotDescription)
    ensures Count(ms, IsDescription) == Count(metas, IsDescription)
  {
    var ms := seq(|metas|, i requires 0 <= i < |metas| => SetContent(metas[i], text));
    forall i | 0 <= i < |metas|
      ensures IsDescription(ms[i]) ==> HasAttr(ms[i], "content", text)
      ensures KeepsAllButContent(metas[i], ms[i])
    {
      SetContentFacts(metas[i], text);
    }
    FilterPointwise(ms, metas, NotDescription);
    SameCount(ms, metas);
    ms
  }

  lemma {:induction false} SameCount(a: seq<Attrs>, b: seq<Attrs>)
    requires |a| == |b|
    requires forall i | 0 <= i < |a| :: IsDescription(a[i]) == IsDescription(b[i])
    ensures Count(a, IsDescription) == Count(b, IsDescription)
    decreases |a|
  {
    if |a| > 0 {
      SameCount(a[1..], b[1..]);
    }
  }

  /** Setting the same description twice is setting it once. */
  lemma SetPageDescriptionIdempotent(d: Doc, text: string)
    ensures SetPageDescription(SetPageDescription(d, text), text) == SetPageDescription(d, text)
  {
    var r := SetPageDescription(d, text);
    if text == "" {
      assert FirstIndex(r.metas, IsDescription, 0).None?;
      FilterAll(r.metas, NotDescription);
    } else {
      SetDescriptionStable(r, text);
    }
  }

  /** Once every description tag holds `text`, setting `text` again changes nothing. */
  lemma SetDescriptionStable(r: Doc, text: string)
    requires text != ""
    requires GetPageDescription(r) == Some(text)
    requires forall i | 0 <= i < |r.metas| && IsDescription(r.metas[i]) :: HasAttr(r.metas[i], "content", text)
    ensures SetPageDescription(r, text) == r
  {
    if FirstIndex(r.metas, IsDescription, 0).Some? {
      var rr := SetPageDescription(r, text);
      forall i | 0 <= i < |r.metas| ensures rr.metas[i] == r.metas[i] {
        SetContentFacts(r.metas[i], text);
      }
    }
  }

  /**
    The `content` an HTML parser reads back from the markup `content="` + text + `"`: the
    attribute value ends at the first double quote of the text. Character references such as
    `&amp;` are left as written.
   */
  function QuotedValue(text: string): (r: string)
    ensures |r| <= |text| && r == text[..|r|]
    ensures '"' !in r
    ensures '"' !in text ==> r == text
  {
    if |text| == 0 || text[0] == '"' then ""
    else [text[0]] + QuotedValue(text[1..])
  }

  /**
    setPageDescription as the source writes it: on a page without a description tag the new
    tag is built by pasting the text into markup without escaping it, so what the page then
    holds as its description is the text only up to its first double quote.
   */
  function SetPageDescriptionAsWritten(d: Doc, text: string): (r: Doc)
    ensures '"' !in text && '&' !in text ==> r == SetPageDescription(d, text)
    ensures r.body == d.body
  {
    if text != "" && FirstIndex(d.metas, IsDescription, 0).None? then
      d.(metas := [DescriptionMeta(QuotedValue(text))] + d.metas)
    else SetPageDescription(d, text)
  }

  /** A description with a double quote does not survive being set on a page without one. */
  lemma QuoteCutsNewDescription()
    ensures GetPageDescription(SetPageDescriptionAsWritten(Doc([], []), "say \"hi\"")) == Some("say ")
    ensures GetPageDescription(SetPageDescription(Doc([], []), "say \"hi\"")) == Some("say \"hi\"")
  {
    var text := "say \"hi\"";
    assert text[4] == '"';
    assert QuotedValue(text[4..]) == "";
    assert QuotedValue(text) == "say ";
    var r := SetPageDescriptionAsWritten(Doc([], []), text);
    assert IsDescription(r.metas[0]);
    assert FirstIndex(r.metas, IsDescription, 0) == Some(0);
  }

  // ---------------------------------------------------------------------------
  // Application marker and page id

  predicate IsAppMarker(m: Attrs) {
    HasAttr(m, "content", "sitecake")
  }

  predicate NotAppMarker(m: Attrs) {
    !IsAppMarker(m)
  }

  /** `<meta name="application-name" content="sitecake"/>` */
  const AppMeta: Attrs := map["name" := "application-name", "content" := "sitecake"]

  const PageIdAttr := "data-pageid"

  /** addMetadata: prepends the application marker unless one is present. */
  function AddMetadata(d: Doc): (r: Doc)
    ensures r.body == d.body
    ensures exists i | 0 <= i < |r.metas| :: IsAppMarker(r.metas[i])
    ensures Filter(r.metas, NotAppMarker) == Filter(d.metas, NotAppMarker)
    ensures (exists i | 0 <= i < |d.metas| :: IsAppMarker(d.metas[i])) ==> r == d
    ensures (forall i | 0 <= i < |d.metas| :: !IsAppMarker(d.metas[i])) ==> Count(r.metas, IsAppMarker) == 1
  {
    if FirstIndex(d.metas, IsAppMarker, 0).Some? then d
    else
      var r := d.(metas := [AppMeta] + d.metas);
      assert IsAppMarker(r.metas[0]);
      FilterAppend([AppMeta], d.metas, NotAppMarker);
      FilterAppend([AppMeta], d.metas, IsAppMarker);
      FilterNone(d.metas, IsAppMarker);
      r
  }

  /** Adding the application marker twice is adding it once. */
  lemma AddMetadataIdempotent(d: Doc)
    ensures AddMetadata(AddMetadata(d)) == AddMetadata(d)
  {
    var r := AddMetadata(d);
    var i :| 0 <= i < |r.metas| && IsAppMarker(r.metas[i]);
  }

  /** removeMetadata: deletes every application marker and nothing else. */
  function RemoveMetadata(d: Doc): (r: Doc)
    ensures r.body == d.body
    ensures forall i | 0 <= i < |r.metas| :: !IsAppMarker(r.metas[i])
    ensures Filter(r.metas, NotAppMarker) == Filter(d.metas, NotAppMarker)
  {
    FilterIdempotent(d.metas, NotAppMarker);
    d.(metas := Filter(d.metas, NotAppMarker))
  }

  /**
    pageId: the `data-pageid` of the first application marker, `None` (phpQuery's `null`) when
    that marker has no such attribute. Without any marker the selection is empty, and phpQuery's
    `attr` getter then yields `""`.
   */
  function PageId(d: Doc): (r: Option<string>)
    ensures (forall i | 0 <= i < |d.metas| :: !IsAppMarker(d.metas[i])) ==> r == Some("")
    ensures forall i | 0 <= i < |d.metas| && IsAppMarker(d.metas[i]) && (forall j | 0 <= j < i :: !IsAppMarker(d.metas[j])) ::
      r == Attr(d.metas[i], PageIdAttr)
  {
    match FirstIndex(d.metas, IsAppMarker, 0)
    case None => Some("")
    case Some(i) => Attr(d.metas[i], PageIdAttr)
  }

  /** The meta tag with `data-pageid` set to `id` when it is an application marker. */
  function StampId(m: Attrs, id: string): Attrs {
    if IsAppMarker(m) then m[PageIdAttr := id] else m
  }

  lemma StampIdFacts(m: Attrs, id: string)
    ensures IsAppMarker(StampId(m, id)) == IsAppMarker(m)
    ensures IsAppMarker(m) ==> HasAttr(StampId(m, id), PageIdAttr, id)
    ensures DropId(StampId(m, id)) == DropId(m)
  {
    assert PageIdAttr != "content";
    if IsAppMarker(m) {
      assert DropId(StampId(m, id)) == m[PageIdAttr := id] - {PageIdAttr};
    }
  }

  /**
    ensurePageId: makes sure the application marker exists, then sets `data-pageid` on every
    application marker to the fresh id `id`, overwriting any id it had.
   */
  function EnsurePageId(d: Doc, id: string): (r: Doc)
    ensures r.body == d.body
    ensures PageId(r) == Some(id)
    ensures forall i | 0 <= i < |r.metas| && IsAppMarker(r.metas[i]) :: HasAttr(r.metas[i], PageIdAttr, id)
    ensures Filter(r.metas, NotAppMarker) == Filter(d.metas, NotAppMarker)
  {
    var a := AddMetadata(d);
    var ms := StampAll(a.metas, id);
    forall i | 0 <= i < |a.metas|
      ensures IsAppMarker(ms[i]) == IsAppMarker(a.metas[i])
      ensures IsAppMarker(ms[i]) ==> HasAttr(ms[i], PageIdAttr, id)
    {
      StampIdFacts(a.metas[i], id);
    }
    FilterPointwise(ms, a.metas, NotAppMarker);
    var k :| 0 <= k < |a.metas| && IsAppMarker(a.metas[k]);
    assert IsAppMarker(ms[k]);
    var j := FirstIndex(ms, IsAppMarker, 0).value;
    assert HasAttr(ms[j], PageIdAttr, id);
    d.(metas := ms)
  }

  /** The meta tag without `data-pageid` when it is an application marker. */
  function DropId(m: Attrs): Attrs {
    if IsAppMarker(m) then m - {PageIdAttr} else m
  }

  function StampAll(ms: seq<Attrs>, id: string): (r: seq<Attrs>)
    ensures |r| == |ms| && forall i | 0 <= i < |ms| :: r[i] == StampId(ms[i], id)
  {
    seq(|ms|, i requires 0 <= i < |ms| => StampId(ms[i], id))
  }

  function DropAll(ms: seq<Attrs>): (r: seq<Attrs>)
    ensures |r| == |ms| && forall i | 0 <= i < |ms| :: r[i] == DropId(ms[i])
  {
    seq(|ms|, i requires 0 <= i < |ms| => DropId(ms[i]))
  }

  /**
    removePageId: strips `data-pageid` from every application marker; the markers stay, and
    every other attribute and tag is kept.
   */
  function RemovePageId(d: Doc): (r: Doc)
    ensures r.body == d.body && |r.metas| == |d.metas|
    ensures (exists i | 0 <= i < |d.metas| :: IsAppMarker(d.metas[i])) ==> PageId(r).None?
    ensures (forall i | 0 <= i < |d.metas| :: !IsAppMarker(d.metas[i])) ==> PageId(r) == Some("")
    ensures forall i | 0 <= i < |d.metas| :: IsAppMarker(r.metas[i]) == IsAppMarker(d.metas[i])
    ensures forall i | 0 <= i < |d.metas| && !IsAppMarker(d.metas[i]) :: r.metas[i] == d.metas[i]
    ensures forall i | 0 <= i < |d.metas| && IsAppMarker(d.metas[i]) ::
      && PageIdAttr !in r.metas[i]
      && r.metas[i].Keys == d.metas[i].Keys - {PageIdAttr}
      && forall a | a in d.metas[i] && a != PageIdAttr :: a in r.metas[i] && r.metas[i][a] == d.metas[i][a]
  {
    d.(metas := DropAll(d.metas))
  }

  /** Removing the id after ensuring one leaves the page as if only the marker had been added. */
  lemma RemoveEnsuredPageId(d: Doc, id: string)
    ensures RemovePageId(EnsurePageId(d, id)) == RemovePageId(AddMetadata(d))
  {
    var ms := AddMetadata(d).metas;
    var x := DropAll(StampAll(ms, id));
    forall i | 0 <= i < |ms| ensures x[i] == DropAll(ms)[i] {
      StampIdFacts(ms[i], id);
    }
  }
}

=== FILE: nav.dfy ===
/**
  Navigation: routing internal links through the site's entry point when the page is
  rendered, and reading and replacing navigation menus.

  Which links count as external is decided by a test that is not part of this model, the
  parameter `isExternal`; which elements a menu selector picks is the parameter `selected`,
  and the text content of an element is the parameter `textOf`.
 */
module Navigation {
  import opened Document

  /** The server entry point that serves a page named in its query string. */
  const EntryPoint := "sitecake.php?page="

  predicate IsAnchor(e: Element) {
    e.tag == "a"
  }

  /** DOM `getAttribute('href')`: the empty string when the attribute is absent. */
  function Href(e: Element): string {
    if "href" in e.attrs then e.attrs["href"] else ""
  }

  /** An anchor whose target is rewritten: one the external-link test rejects. */
  predicate IsInternalLink(e: Element, isExternal: string -> bool) {
    IsAnchor(e) && !isExternal(Href(e))
  }

  function AdjustLink(e: Element, isExternal: string -> bool): Element {
    if IsInternalLink(e, isExternal) then e.(attrs := e.attrs["href" := EntryPoint + Href(e)]) else e
  }

  /**
    adjustNavLinks: every anchor the external-link test rejects gets as `href` the entry point
    followed by its old `href` (the empty string if it had none); nothing else changes.
   */
  function AdjustNavLinks(d: Doc, isExternal: string -> bool): (r: Doc)
    ensures r.metas == d.metas && |r.body| == |d.body|
    ensures forall k | 0 <= k < |d.body| ::
      && r.body[k].tag == d.body[k].tag
      && r.body[k].classes == d.body[k].classes
      && r.body[k].inner == d.body[k].inner
    ensures forall k | 0 <= k < |d.body| && !IsInternalLink(d.body[k], isExternal) :: r.body[k] == d.body[k]
    ensures forall k | 0 <= k < |d.body| && IsInternalLink(d.body[k], isExternal) ::
      && "href" in r.body[k].attrs
      && Href(r.body[k]) == EntryPoint + Href(d.body[k])
      && r.body[k].attrs.Keys == d.body[k].attrs.Keys + {"href"}
      && forall a | a in d.body[k].attrs && a != "href" :: r.body[k].attrs[a] == d.body[k].attrs[a]
  {
    Doc(d.metas, seq(|d.body|, k requires 0 <= k < |d.body| => AdjustLink(d.body[k], isExternal)))
  }

  /**
    The rewritten link carries the original target: stripping the entry point from the new
    `href` gives back the old one.
   */
  lemma AdjustedLinkKeepsTarget(d: Doc, isExternal: string -> bool, k: nat)
    requires k < |d.body| && IsInternalLink(d.body[k], isExternal)
    ensures var h := Href(AdjustNavLinks(d, isExternal).body[k]);
      |EntryPoint| <= |h| && h[..|EntryPoint|] == EntryPoint && h[|EntryPoint|..] == Href(d.body[k])
  {
    var h := Href(AdjustNavLinks(d, isExternal).body[k]);
    assert h == EntryPoint + Href(d.body[k]);
  }

  /**
    render: the page as served, with its internal links routed through the entry point.
    In the source the rewrite is made on the page's own document, which is also returned.
   */
  function Render(d: Doc, isExternal: string -> bool): (r: Doc)
    ensures r.metas == d.metas && |r.body| == |d.body|
    ensures forall k | 0 <= k < |d.body| && IsAnchor(d.body[k]) ::
      if isExternal(Href(d.body[k])) then Href(r.body[k]) == Href(d.body[k])
      else |EntryPoint| <= |Href(r.body[k])| && Href(r.body[k])[..|EntryPoint|] == EntryPoint && Href(r.body[k])[|EntryPoint|..] == Href(d.body[k])
    ensures forall k | 0 <= k < |d.body| && !IsAnchor(d.body[k]) :: r.body[k] == d.body[k]
    ensures forall k | 0 <= k < |d.body| && isExternal(Href(d.body[k])) :: r.body[k] == d.body[k]
    ensures forall k | 0 <= k < |d.body| ::
      && r.body[k].tag == d.body[k].tag
      && r.body[k].classes == d.body[k].classes
      && r.body[k].inner == d.body[k].inner
      && r.body[k].attrs.Keys - {"href"} == d.body[k].attrs.Keys - {"href"}
      && forall a | a in d.body[k].attrs && a != "href" :: a in r.body[k].attrs && r.body[k].attrs[a] == d.body[k].attrs[a]
  {
    var r := AdjustNavLinks(d, isExternal);
    forall k | 0 <= k < |d.body| && IsInternalLink(d.body[k], isExternal)
      ensures |EntryPoint| <= |Href(r.body[k])| && Href(r.body[k])[..|EntryPoint|] == EntryPoint
      ensures Href(r.body[k])[|EntryPoint|..] == Href(d.body[k])
    {
      AdjustedLinkKeepsTarget(d, isExternal, k);
    }
    r
  }

  /**
    Rendering is not meant to be applied twice: when the external-link test rejects the
    rewritten target too, a second pass puts the entry point in front once more.
   */
  lemma RenderTwicePrefixesTwice(d: Doc, isExternal: string -> bool, k: nat)
    requires k < |d.body| && IsInternalLink(d.body[k], isExternal)
    requires !isExternal(EntryPoint + Href(d.body[k]))
    ensures Href(AdjustNavLinks(AdjustNavLinks(d, isExternal), isExternal).body[k]) == EntryPoint + EntryPoint + Href(d.body[k])
  {
    var r := AdjustNavLinks(d, isExternal);
    assert IsInternalLink(r.body[k], isExternal);
  }

  /** setNav: every element the selector picks gets `html` as its content. */
  function SetNav(d: Doc, selected: Element -> bool, html: string): (r: Doc)
    ensures r.metas == d.metas && |r.body| == |d.body|
    ensures forall k | 0 <= k < |d.body| && selected(d.body[k]) :: r.body[k].inner == html
    ensures forall k | 0 <= k < |d.body| :: r.body[k].(inner := d.body[k].inner) == d.body[k]
    ensures forall k | 0 <= k < |d.body| && !selected(d.body[k]) :: r.body[k] == d.body[k]
  {
    Doc(d.metas, seq(|d.body|, k requires 0 <= k < |d.body| => if selected(d.body[k]) then d.body[k].(inner := html) else d.body[k]))
  }

  /**
    The menu entries of `es`, read in order into a PHP array keyed by `href`: a later entry with
    the same `href` overwrites an earlier one.
   */
  function NavUrls(es: seq<Element>, selected: Element -> bool, textOf: Element -> string): (r: map<string, string>)
    ensures forall k | 0 <= k < |es| && selected(es[k]) :: Href(es[k]) in r
    ensures forall u | u in r :: exists k | 0 <= k < |es| :: selected(es[k]) && Href(es[k]) == u
    ensures forall k | 0 <= k < |es| && selected(es[k]) && LastWithHref(es, selected, k) :: r[Href(es[k])] == textOf(es[k])
    decreases |es|
  {
    if |es| == 0 then map[]
    else
      var init := es[..|es| - 1];
      var e := es[|es| - 1];
      var m := NavUrls(init, selected, textOf);
      NavUrlsStep(es, selected);
      if selected(e) then m[Href(e) := textOf(e)] else m
  }

  /** No entry after `k` that the selector picks has the same `href` as entry `k`. */
  predicate LastWithHref(es: seq<Element>, selected: Element -> bool, k: nat)
    requires k < |es|
  {
    forall j | k < j < |es| && selected(es[j]) :: Href(es[j]) != Href(es[k])
  }

  lemma NavUrlsStep(es: seq<Element>, selected: Element -> bool)
    requires |es| > 0
    ensures forall k | 0 <= k < |es| - 1 :: es[..|es| - 1][k] == es[k]
    ensures forall k | 0 <= k < |es| - 1 && LastWithHref(es, selected, k) :: LastWithHref(es[..|es| - 1], selected, k)
  {
  }

  /**
    listNavUrls: for every menu entry the selector picks, its `href` mapped to its text; when
    several entries share an `href`, the last one's text is kept.
   */
  function ListNavUrls(d: Doc, selected: Element -> bool, textOf: Element -> string): (r: map<string, string>)
    ensures forall k | 0 <= k < |d.body| && selected(d.body[k]) :: Href(d.body[k]) in r
    ensures forall u | u in r :: exists k | 0 <= k < |d.body| :: selected(d.body[k]) && Href(d.body[k]) == u
    ensures forall k | 0 <= k < |d.body| && selected(d.body[k]) && LastWithHref(d.body, selected, k) ::
      r[Href(d.body[k])] == textOf(d.body[k])
  {
    NavUrls(d.body, selected, textOf)
  }
}

=== FILE: rewriter.dfy ===
/**
  Adding and removing a prefix on the resource URLs of links and images.

  Only `a` and `img` elements are rewritten, only their `src`, `href` and `srcset` attributes,
  and only values that the site's resource-URL test accepts. That test is not part of this
  model and is a parameter, `isResourceUrl`.
 */
module UrlRewriter {
  import opened Document

  /** The elements the selector `a, img` picks. */
  predicate IsLinkOrImage(e: Element) {
    e.tag == "a" || e.tag == "img"
  }

  /** The attributes named in `'src,href,srcset'`. */
  predicate IsUrlAttr(a: string) {
    a == "src" || a == "href" || a == "srcset"
  }

  /** An attribute value that a rewrite may touch. */
  predicate Rewritable(e: Element, a: string, isResourceUrl: string -> bool)
    requires a in e.attrs
  {
    IsLinkOrImage(e) && IsUrlAttr(a) && isResourceUrl(e.attrs[a])
  }

  /** The value with `prefix` put in front, when it is a resource URL. */
  function PrefixValue(v: string, prefix: string, isResourceUrl: string -> bool): string {
    if isResourceUrl(v) then prefix + v else v
  }

  /** The value without its leading `prefix`, when it is a resource URL that starts with it. */
  function UnprefixValue(v: string, prefix: string, isResourceUrl: string -> bool): string {
    if isResourceUrl(v) && |prefix| <= |v| && v[..|prefix|] == prefix then v[|prefix|..] else v
  }

  function PrefixAttrs(m: Attrs, prefix: string, isResourceUrl: string -> bool): Attrs {
    map a | a in m :: if IsUrlAttr(a) then PrefixValue(m[a], prefix, isResourceUrl) else m[a]
  }

  function UnprefixAttrs(m: Attrs, prefix: string, isResourceUrl: string -> bool): Attrs {
    map a | a in m :: if IsUrlAttr(a) then UnprefixValue(m[a], prefix, isResourceUrl) else m[a]
  }

  function PrefixElement(e: Element, prefix: string, isResourceUrl: string -> bool): Element {
    if IsLinkOrImage(e) then e.(attrs := PrefixAttrs(e.attrs, prefix, isResourceUrl)) else e
  }

  function UnprefixElement(e: Element, prefix: string, isResourceUrl: string -> bool): Element {
    if IsLinkOrImage(e) then e.(attrs := UnprefixAttrs(e.attrs, prefix, isResourceUrl)) else e
  }

  /**
    prefixResourceUrls: every resource URL in a `src`, `href` or `srcset` attribute of a link or
    image gets `prefix` in front; nothing else in the page changes.
   */
  function PrefixResourceUrls(d: Doc, prefix: string, isResourceUrl: string -> bool): (r: Doc)
    ensures r.metas == d.metas && |r.body| == |d.body|
    ensures forall k | 0 <= k < |d.body| ::
      && r.body[k].tag == d.body[k].tag
      && r.body[k].classes == d.body[k].classes
      && r.body[k].inner == d.body[k].inner
      && r.body[k].attrs.Keys == d.body[k].attrs.Keys
    ensures forall k | 0 <= k < |d.body| && !IsLinkOrImage(d.body[k]) :: r.body[k] == d.body[k]
    ensures forall k, a | 0 <= k < |d.body| && a in d.body[k].attrs ::
      r.body[k].attrs[a] ==
        if Rewritable(d.body[k], a, isResourceUrl) then prefix + d.body[k].attrs[a] else d.body[k].attrs[a]
  {
    Doc(d.metas, seq(|d.body|, k requires 0 <= k < |d.body| => PrefixElement(d.body[k], prefix, isResourceUrl)))
  }

  /**
    unprefixResourceUrls: every resource URL in a `src`, `href` or `srcset` attribute of a link
    or image that starts with `prefix` loses it; values without the prefix, and everything
    else in the page, stay as they are.
   */
  function UnprefixResourceUrls(d: Doc, prefix: string, isResourceUrl: string -> bool): (r: Doc)
    ensures r.metas == d.metas && |r.body| == |d.body|
    ensures forall k | 0 <= k < |d.body| ::
      && r.body[k].tag == d.body[k].tag
      && r.body[k].classes == d.body[k].classes
      && r.body[k].inner == d.body[k].inner
      && r.body[k].attrs.Keys == d.body[k].attrs.Keys
    ensures forall k | 0 <= k < |d.body| && !IsLinkOrImage(d.body[k]) :: r.body[k] == d.body[k]
    ensures forall k, a | 0 <= k < |d.body| && a in d.body[k].attrs && !Rewritable(d.body[k], a, isResourceUrl) ::
      r.body[k].attrs[a] == d.body[k].attrs[a]
    ensures forall k, a | 0 <= k < |d.body| && a in d.body[k].attrs && Rewritable(d.body[k], a, isResourceUrl) ::
      var v := d.body[k].attrs[a];
      if |prefix| <= |v| && v[..|prefix|] == prefix then prefix + r.body[k].attrs[a] == v
      else r.body[k].attrs[a] == v
  {
    Doc(d.metas, seq(|d.body|, k requires 0 <= k < |d.body| => UnprefixElement(d.body[k], prefix, isResourceUrl)))
  }

  /**
    Removing a prefix that was just added restores the page, provided the resource-URL test
    still accepts each resource URL once it carries the prefix.
   */
  lemma UnprefixAfterPrefix(d: Doc, prefix: string, isResourceUrl: string -> bool)
    requires forall k, a | 0 <= k < |d.body| && a in d.body[k].attrs && isResourceUrl(d.body[k].attrs[a]) ::
      isResourceUrl(prefix + d.body[k].attrs[a])
    ensures UnprefixResourceUrls(PrefixResourceUrls(d, prefix, isResourceUrl), prefix, isResourceUrl) == d
  {
    var p := PrefixResourceUrls(d, prefix, isResourceUrl);
    var u := UnprefixResourceUrls(p, prefix, isResourceUrl);
    forall k | 0 <= k < |d.body| ensures u.body[k] == d.body[k] {
      assert p.body[k] == PrefixElement(d.body[k], prefix, isResourceUrl);
      assert u.body[k] == UnprefixElement(p.body[k], prefix, isResourceUrl);
      UnprefixAfterPrefixElement(d.body[k], prefix, isResourceUrl);
    }
    assert u.body == d.body;
  }

  /** The same round trip on one element. */
  lemma UnprefixAfterPrefixElement(e: Element, prefix: string, isResourceUrl: string -> bool)
    requires forall a | a in e.attrs && isResourceUrl(e.attrs[a]) :: isResourceUrl(prefix + e.attrs[a])
    ensures UnprefixElement(PrefixElement(e, prefix, isResourceUrl), prefix, isResourceUrl) == e
  {
    if IsLinkOrImage(e) {
      var m := PrefixAttrs(e.attrs, prefix, isResourceUrl);
      var m' := UnprefixAttrs(m, prefix, isResourceUrl);
      forall a | a in e.attrs ensures m'[a] == e.attrs[a] {
        var v := e.attrs[a];
        if IsUrlAttr(a) && isResourceUrl(v) {
          assert m[a] == prefix + v;
          assert (prefix + v)[..|prefix|] == prefix;
          assert (prefix + v)[|prefix|..] == v;
        }
      }
      assert m' == e.attrs;
    }
  }

  /** A page none of whose resource URLs starts with the prefix is left alone by unprefixing. */
  lemma UnprefixWithoutPrefix(d: Doc, prefix: string, isResourceUrl: string -> bool)
    requires forall k, a | 0 <= k < |d.body| && a in d.body[k].attrs && IsUrlAttr(a) && isResourceUrl(d.body[k].attrs[a]) ::
      !(|prefix| <= |d.body[k].attrs[a]| && d.body[k].attrs[a][..|prefix|] == prefix)
    ensures UnprefixResourceUrls(d, prefix, isResourceUrl) == d
  {
    var u := UnprefixResourceUrls(d, prefix, isResourceUrl);
    forall k | 0 <= k < |d.body| ensures u.body[k] == d.body[k] {
      if IsLinkOrImage(d.body[k]) {
        assert u.body[k].attrs == d.body[k].attrs;
      }
    }
  }
}

=== FILE: seqs.dfy ===
/** Generic sequence helpers: the first element with a property, and order-preserving filtering. */
module Seqs {
  import opened Wrappers

  /** Index of the first element at or after `k` that satisfies `p`. */
  function FirstIndex<T>(s: seq<T>, p: T -> bool, k: nat): (r: Option<nat>)
    requires k <= |s|
    ensures r.Some? ==> k <= r.value < |s| && p(s[r.value])
    ensures r.Some? ==> forall j | k <= j < r.value :: !p(s[j])
    ensures r.None? <==> forall j | k <= j < |s| :: !p(s[j])
    decreases |s| - k
  {
    if k == |s| then None
    else if p(s[k]) then Some(k)
    else FirstIndex(s, p, k + 1)
  }

  /** The first element of `s` that satisfies `p`, if any. */
  function First<T>(s: seq<T>, p: T -> bool): Option<T>
  {
    match FirstIndex(s, p, 0)
    case Some(k) => Some(s[k])
    case None => None
  }

  /** The elements of `s` that satisfy `keep`, in their original order. */
  function Filter<T>(s: seq<T>, keep: T -> bool): (r: seq<T>)
    ensures |r| <= |s|
    ensures forall i | 0 <= i < |r| :: keep(r[i])
  {
    if |s| == 0 then []
    else (if keep(s[0]) then [s[0]] else []) + Filter(s[1..], keep)
  }

  /** Filtering drops exactly the elements that fail the test. */
  lemma {:induction false} FilterMembers<T>(s: seq<T>, keep: T -> bool)
    ensures forall i | 0 <= i < |Filter(s, keep)| :: Filter(s, keep)[i] in s
    ensures forall i | 0 <= i < |s| && keep(s[i]) :: s[i] in Filter(s, keep)
    decreases |s|
  {
    if |s| > 0 {
      FilterMembers(s[1..], keep);
      var r := Filter(s, keep);
      var head := if keep(s[0]) then [s[0]] else [];
      assert r == head + Filter(s[1..], keep);
      forall i | 0 <= i < |r| ensures r[i] in s {
        if i >= |head| {
          assert r[i] == Filter(s[1..], keep)[i - |head|];
          assert r[i] in s[1..];
        }
      }
      forall i | 0 <= i < |s| && keep(s[i]) ensures s[i] in r {
        if i > 0 {
          assert s[i] == s[1..][i - 1];
        }
      }
    }
  }

  /** Filtering drops everything exactly when nothing passes. */
  lemma {:induction false} FilterNone<T>(s: seq<T>, keep: T -> bool)
    ensures Filter(s, keep) == [] <==> forall i | 0 <= i < |s| :: !keep(s[i])
    decreases |s|
  {
    if |s| > 0 {
      FilterNone(s[1..], keep);
      if Filter(s, keep) == [] {
        forall i | 0 <= i < |s| ensures !keep(s[i]) {
          if i > 0 {
            assert s[i] == s[1..][i - 1];
          }
        }
      }
    }
  }

  lemma {:induction false} FilterAppend<T>(a: seq<T>, b: seq<T>, keep: T -> bool)
    ensures Filter(a + b, keep) == Filter(a, keep) + Filter(b, keep)
    decreases |a|
  {
    if |a| == 0 {
      assert a + b == b;
    } else {
      assert (a + b)[0] == a[0];
      assert (a + b)[1..] == a[1..] + b;
      FilterAppend(a[1..], b, keep);
    }
  }

  /** Filtering keeps every occurrence of an element that passes and none of one that fails. */
  lemma {:induction false} FilterMultiset<T>(s: seq<T>, keep: T -> bool)
    ensures forall x :: multiset(Filter(s, keep))[x] == (if keep(x) then multiset(s)[x] else 0)
    decreases |s|
  {
    if |s| > 0 {
      FilterMultiset(s[1..], keep);
      assert s == [s[0]] + s[1..];
      assert multiset(s) == multiset([s[0]]) + multiset(s[1..]);
    }
  }

  /** Filtering keeps everything exactly when every element passes. */
  lemma {:induction false} FilterAll<T>(s: seq<T>, keep: T -> bool)
    requires forall i | 0 <= i < |s| :: keep(s[i])
    ensures Filter(s, keep) == s
    decreases |s|
  {
    if |s| > 0 {
      FilterAll(s[1..], keep);
    }
  }

  /** Filtering twice with the same test is filtering once. */
  lemma {:induction false} FilterIdempotent<T>(s: seq<T>, keep: T -> bool)
    ensures Filter(Filter(s, keep), keep) == Filter(s, keep)
  {
    var r := Filter(s, keep);
    FilterAll(r, keep);
  }

  /**
    Two sequences of equal length that agree on which positions pass `keep`,
    and agree on the elements at those positions, filter to the same sequence.
   */
  lemma {:induction false} FilterPointwise<T>(a: seq<T>, b: seq<T>, keep: T -> bool)
    requires |a| == |b|
    requires forall i | 0 <= i < |a| :: keep(a[i]) == keep(b[i])
    requires forall i | 0 <= i < |a| && keep(a[i]) :: a[i] == b[i]
    ensures Filter(a, keep) == Filter(b, keep)
    decreases |a|
  {
    if |a| > 0 {
      FilterPointwise(a[1..], b[1..], keep);
    }
  }

  /**
    The largest `i` with `lo <= i <= hi` and `p(i)`: the order in which a greedy quantifier
    gives characters back while a backtracking matcher looks for a way to continue.
   */
  function Highest(lo: nat, hi: nat, p: nat -> bool): (r: Option<nat>)
    requires lo <= hi
    ensures r.Some? ==> lo <= r.value <= hi && p(r.value)
    ensures r.Some? ==> forall i: nat | r.value < i <= hi :: !p(i)
    ensures r.None? <==> forall i: nat | lo <= i <= hi :: !p(i)
    decreases hi - lo
  {
    if p(hi) then Some(hi)
    else if hi == lo then None
    else Highest(lo, hi - 1, p)
  }

  /** The number of elements of `s` that satisfy `p`. */
  function Count<T>(s: seq<T>, p: T -> bool): nat
  {
    |Filter(s, p)|
  }
}

=== FILE: text.dfy ===
/**
  Character classes of the regular expressions used on class attributes and markup,
  and the correspondence between a class attribute string and its whitespace-delimited tokens.

  A class attribute is kept as its token list; its string form is the tokens joined by single
  spaces (`Join`). The regular expressions of the source are anchored with `(^|\s)`, so they can
  only start matching at a `Boundary`, and they read within the maximal run of non-space
  characters that starts there (`Run`). `LeftmostIsFirstToken` shows that the leftmost such match
  in the joined string is the first matching token.
 */
module Text {
  import opened Wrappers
  import opened Seqs

  /** PCRE's `\s`: space, tab, line feed, vertical tab, form feed, carriage return. */
  predicate IsSpace(c: char) {
    c == ' ' || c == '\t' || c == '\n' || c == '\U{B}' || c == '\U{C}' || c == '\r'
  }

  /** PCRE's `[^\s]`. */
  predicate NotSpace(c: char) {
    !IsSpace(c)
  }

  /** A class token: non-empty and free of whitespace. */
  predicate WfToken(t: string) {
    |t| > 0 && forall j | 0 <= j < |t| :: NotSpace(t[j])
  }

  predicate WfTokens(ts: seq<string>) {
    forall k | 0 <= k < |ts| :: WfToken(ts[k])
  }

  /** The class attribute string: the tokens separated by single spaces. */
  function Join(ts: seq<string>): string
    decreases |ts|
  {
    if |ts| == 0 then ""
    else if |ts| == 1 then ts[0]
    else ts[0] + " " + Join(ts[1..])
  }

  /**
    End of the greedy run of characters satisfying `p` that starts at `i`:
    the first position at or after `i` whose character fails `p`, or the end of `s`.
   */
  function SpanEnd(s: string, i: nat, p: char -> bool): (e: nat)
    requires i <= |s|
    ensures i <= e <= |s|
    ensures forall j | i <= j < e :: p(s[j])
    ensures e == |s| || !p(s[e])
    decreases |s| - i
  {
    if i == |s| || !p(s[i]) then i else SpanEnd(s, i + 1, p)
  }

  /** A run end is determined by its defining properties. */
  lemma SpanEndUnique(s: string, i: nat, p: char -> bool, e: nat)
    requires i <= e <= |s|
    requires forall j | i <= j < e :: p(s[j])
    requires e == |s| || !p(s[e])
    ensures SpanEnd(s, i, p) == e
  {
  }

  /** End of the `[^\s]*` run starting at `i`. */
  function RunEnd(s: string, i: nat): nat
    requires i <= |s|
  {
    SpanEnd(s, i, NotSpace)
  }

  /** The maximal whitespace-free run starting at `i`: the token that begins there. */
  function Run(s: string, i: nat): string
    requires i <= |s|
  {
    s[i..RunEnd(s, i)]
  }

  /** The anchor `(^|\s)` holds just before position `i`. */
  predicate Boundary(s: string, i: nat)
    requires i <= |s|
  {
    i == 0 || IsSpace(s[i - 1])
  }

  /** A token satisfying `p` begins at position `i`. */
  predicate TokenAt(s: string, i: nat, p: string -> bool)
    requires i <= |s|
  {
    Boundary(s, i) && p(Run(s, i))
  }

  /** The leftmost position at or after `i` where a token satisfying `p` begins. */
  function Leftmost(s: string, p: string -> bool, i: nat): (r: Option<nat>)
    requires i <= |s|
    ensures r.Some? ==> i <= r.value <= |s| && TokenAt(s, r.value, p)
    ensures r.Some? ==> forall j | i <= j < r.value :: !TokenAt(s, j, p)
    ensures r.None? <==> forall j | i <= j <= |s| :: !TokenAt(s, j, p)
    decreases |s| - i
  {
    if TokenAt(s, i, p) then Some(i)
    else if i == |s| then None
    else Leftmost(s, p, i + 1)
  }

  /** Offset of token `k` in `Join(ts)`. */
  function Start(ts: seq<string>, k: nat): nat
    requires k <= |ts|
    decreases k
  {
    if k == 0 then 0 else |ts[0]| + 1 + Start(ts[1..], k - 1)
  }

  lemma {:induction false} StartIncreasing(ts: seq<string>, j: nat, k: nat)
    requires WfTokens(ts)
    requires j < k <= |ts|
    ensures Start(ts, j) < Start(ts, k)
    decreases k
  {
    if j > 0 {
      assert WfTokens(ts[1..]) by {
        forall i | 0 <= i < |ts[1..]| ensures WfToken(ts[1..][i]) {
          assert ts[1..][i] == ts[i + 1];
        }
      }
      StartIncreasing(ts[1..], j - 1, k - 1);
    }
  }

  /** In a string made of a whitespace-free word, a space and a rest, the rest's anchors and runs are unchanged. */
  lemma ShiftPastWord(s: string, t: string, r: string, j: nat)
    requires WfToken(t)
    requires s == t + " " + r
    requires j <= |r|
    ensures |t| + 1 + j <= |s|
    ensures Boundary(s, |t| + 1 + j) == Boundary(r, j)
    ensures Run(s, |t| + 1 + j) == Run(r, j)
  {
    var off := |t| + 1;
    var e := RunEnd(r, j);
    forall q | off + j <= q < off + e ensures NotSpace(s[q]) {
      assert s[q] == r[q - off];
    }
    if off + e < |s| {
      assert s[off + e] == r[e];
    }
    SpanEndUnique(s, off + j, NotSpace, off + e);
    assert s[off + j..off + e] == r[j..e];
    if j == 0 {
      assert s[off - 1] == ' ';
    } else {
      assert s[off + j - 1] == r[j - 1];
    }
  }

  /** The run starting at the front of a whitespace-free word followed by a space (or nothing) is that word. */
  lemma RunOfLeadingWord(t: string, r: string)
    requires WfToken(t)
    requires r == [] || r[0] == ' '
    ensures Run(t + r, 0) == t
  {
    var s := t + r;
    forall q | 0 <= q < |t| ensures NotSpace(s[q]) {
      assert s[q] == t[q];
    }
    if |t| < |s| {
      assert s[|t|] == r[0];
    }
    SpanEndUnique(s, 0, NotSpace, |t|);
    assert s[0..|t|] == t;
  }

  lemma TailTokens(ts: seq<string>)
    requires WfTokens(ts) && |ts| > 1
    ensures WfTokens(ts[1..])
    ensures Join(ts) == ts[0] + " " + Join(ts[1..])
  {
    forall i | 0 <= i < |ts[1..]| ensures WfToken(ts[1..][i]) {
      assert ts[1..][i] == ts[i + 1];
    }
  }

  /**
    The anchors of `Join(ts)` are exactly the token offsets, and the run that starts
    at the offset of token `k` is token `k`.
   */
  lemma JoinTokens(ts: seq<string>)
    requires WfTokens(ts)
    ensures forall k | 0 <= k < |ts| ::
      Start(ts, k) < |Join(ts)| && Boundary(Join(ts), Start(ts, k)) && Run(Join(ts), Start(ts, k)) == ts[k]
    ensures forall i | 0 <= i <= |Join(ts)| && Boundary(Join(ts), i) ::
      |ts| == 0 || exists k | 0 <= k < |ts| :: i == Start(ts, k)
  {
    forall k | 0 <= k < |ts|
      ensures Start(ts, k) < |Join(ts)| && Boundary(Join(ts), Start(ts, k)) && Run(Join(ts), Start(ts, k)) == ts[k]
    {
      TokenAtStart(ts, k);
    }
    forall i | 0 <= i <= |Join(ts)| && Boundary(Join(ts), i) && |ts| > 0
      ensures exists k | 0 <= k < |ts| :: i == Start(ts, k)
    {
      var k := BoundaryIsStart(ts, i);
    }
  }

  /** Token `k` begins at its offset in the joined string, right after an anchor. */
  lemma {:induction false} TokenAtStart(ts: seq<string>, k: nat)
    requires WfTokens(ts)
    requires k < |ts|
    ensures Start(ts, k) < |Join(ts)|
    ensures Boundary(Join(ts), Start(ts, k))
    ensures Run(Join(ts), Start(ts, k)) == ts[k]
    decreases k
  {
    if k == 0 {
      FirstTokenAtStart(ts);
    } else {
      TailTokens(ts);
      TokenAtStart(ts[1..], k - 1);
      LaterTokenAtStart(ts, k);
    }
  }

  lemma FirstTokenAtStart(ts: seq<string>)
    requires WfTokens(ts) && |ts| > 0
    ensures 0 < |Join(ts)|
    ensures Run(Join(ts), 0) == ts[0]
  {
    var t := ts[0];
    if |ts| == 1 {
      assert Join(ts) == t + [];
      RunOfLeadingWord(t, []);
    } else {
      TailTokens(ts);
      assert Join(ts) == t + (" " + Join(ts[1..]));
      RunOfLeadingWord(t, " " + Join(ts[1..]));
    }
  }

  /** What holds of token `k - 1` of the tail holds of token `k` of the whole list, one word further on. */
  lemma LaterTokenAtStart(ts: seq<string>, k: nat)
    requires WfTokens(ts) && 0 < k < |ts|
    requires WfTokens(ts[1..])
    requires Start(ts[1..], k - 1) < |Join(ts[1..])|
    requires Boundary(Join(ts[1..]), Start(ts[1..], k - 1))
    requires Run(Join(ts[1..]), Start(ts[1..], k - 1)) == ts[k]
    ensures Start(ts, k) < |Join(ts)|
    ensures Boundary(Join(ts), Start(ts, k))
    ensures Run(Join(ts), Start(ts, k)) == ts[k]
  {
    TailTokens(ts);
    var j := Start(ts[1..], k - 1);
    assert Start(ts, k) == |ts[0]| + 1 + j;
    ShiftPastWord(Join(ts), ts[0], Join(ts[1..]), j);
  }

  /** Every anchor in the joined string is the offset of some token. */
  lemma {:induction false} BoundaryIsStart(ts: seq<string>, i: nat) returns (k: nat)
    requires WfTokens(ts) && |ts| > 0
    requires i <= |Join(ts)| && Boundary(Join(ts), i)
    ensures k < |ts| && i == Start(ts, k)
    decreases |ts|
  {
    var t := ts[0];
    if i == 0 {
      k := 0;
    } else if |ts| == 1 {
      assert false;
    } else {
      TailTokens(ts);
      var r := Join(ts[1..]);
      if i <= |t| {
        assert false;
      }
      var j := i - |t| - 1;
      ShiftPastWord(Join(ts), t, r, j);
      var k' := BoundaryIsStart(ts[1..], j);
      k := k' + 1;
    }
  }

  /** The first token satisfying `p`, found in the joined string: the token at the leftmost anchor where `p` holds. */
  function MatchedToken(s: string, p: string -> bool): Option<string>
  {
    match Leftmost(s, p, 0)
    case Some(i) => Some(Run(s, i))
    case None => None
  }

  /**
    Scanning the class attribute string for the leftmost anchored token with property `p`
    finds the same token as looking through the token list in order.
   */
  lemma LeftmostIsFirstToken(ts: seq<string>, p: string -> bool)
    requires WfTokens(ts)
    requires !p("")
    ensures MatchedToken(Join(ts), p) == First(ts, p)
  {
    match Leftmost(Join(ts), p, 0)
    case Some(i) => LeftmostFound(ts, p, i);
    case None => LeftmostNotFound(ts, p);
  }

  lemma LeftmostFound(ts: seq<string>, p: string -> bool, i: nat)
    requires WfTokens(ts)
    requires !p("")
    requires Leftmost(Join(ts), p, 0) == Some(i)
    ensures First(ts, p) == Some(Run(Join(ts), i))
  {
    var s := Join(ts);
    JoinTokens(ts);
    assert i <= |s| && Boundary(s, i) && p(Run(s, i));
    if |ts| == 0 {
      assert false;
    }
    var k :| 0 <= k < |ts| && i == Start(ts, k);
    assert Run(s, i) == ts[k];
    forall j | 0 <= j < k ensures !p(ts[j]) {
      StartIncreasing(ts, j, k);
      assert !TokenAt(s, Start(ts, j), p);
    }
    var fi := FirstIndex(ts, p, 0);
    assert fi.Some?;
    assert fi.value == k;
  }

  lemma LeftmostNotFound(ts: seq<string>, p: string -> bool)
    requires WfTokens(ts)
    requires Leftmost(Join(ts), p, 0) == None
    ensures First(ts, p) == None
  {
    var s := Join(ts);
    JoinTokens(ts);
    forall k | 0 <= k < |ts| ensures !p(ts[k]) {
      assert !TokenAt(s, Start(ts, k), p);
    }
    assert FirstIndex(ts, p, 0) == None;
  }

  /** A token with property `p` occurs somewhere in the joined string iff one is in the list. */
  lemma SomeTokenIff(ts: seq<string>, p: string -> bool)
    requires WfTokens(ts)
    requires !p("")
    ensures (exists i | 0 <= i <= |Join(ts)| :: TokenAt(Join(ts), i, p)) <==>
            (exists k | 0 <= k < |ts| :: p(ts[k]))
  {
    LeftmostIsFirstToken(ts, p);
    var s := Join(ts);
    if exists k | 0 <= k < |ts| :: p(ts[k]) {
      var k :| 0 <= k < |ts| && p(ts[k]);
      assert FirstIndex(ts, p, 0).Some?;
      var i := Leftmost(s, p, 0).value;
      assert TokenAt(s, i, p);
    } else {
      assert FirstIndex(ts, p, 0).None?;
      assert Leftmost(s, p, 0).None?;
    }
  }
}

=== FILE: wrappers.dfy ===
/** An optional value: `None` stands for PHP's `null` or for "no such element". */
module Wrappers {

  datatype Option<+T> = None | Some(value: T)
}
